=== FILE: README.md ===
# SHIP connection handshake and struct-tag parsing

A Dafny model of three pieces of sequential logic from evcc.

- **The bidirectional PIN exchange of the SHIP transport** (`PinExchange`, pin.dfy). This is connection PIN verification, section 13.4.4.3 of the EEBus SHIP specification. It covers:
  - the announcement written up front;
  - the two completion bits, `pinReceived` and `pinSent`, modelled as a record of two flags (`Status`), with `With` for `status |= bit`;
  - the read loop, which dispatches on the decoded message variant;
  - `readPinState`.
- **The SHIP server** (`ShipServer`, server.dfy). It covers:
  - connection-mode initialisation;
  - protocol-format negotiation, including the AnnounceMax to Select rewrite;
  - the server-only PIN loop, as written and as evidently intended;
  - the short-circuit chain of handshake steps in `Serve`;
  - the message loop that follows, with its routing of ConnectionClose and the ordered close on error.
- **The struct-tag helpers of the configuration metadata** (`Metadata`, metadata.dfy). These are `tagKey`, `hasTagKey`, `enum` and `label`. They sit on a small model of Go's `strings.Split`, `strings.SplitN(s, sep, 2)` and `strings.TrimSpace` (`Strings`, strings.dfy).
  - The comments at metadata.go:40 and :57 say that an empty value yields the key name and that the value is not checked. The code returns the empty string for an entry `key=`, so `hasTagKey` reports it absent. The model follows the code (`Metadata.HasTagKeyFollowsFirstEntry`), and `label` relies on that behaviour for `de=`.

Shared pieces:
- `Base` (base.dfy) holds bytes, `Option`, `Result`, the error kinds and step outcomes.
- `Channel` (channel.dfy) is the connection. It has a finite list of deliveries, a log of writes and other observable events, and a set of log positions whose write the connection refuses.
- `Messages` (messages.dfy) holds the decoded SHIP message variants and the handshake record.

How time and failure are modelled:
- **Deadlines.** A read deadline is the end of the delivery list. Once the list is used up, every read fails.
- **PIN exchange timer.** pin.go arms one timer before its loop. Its deliveries are therefore exactly those that arrive before that single deadline.
- **Write failures.** Whether a write fails is decided by its position in the log.
- **Collaborator steps.** The server steps defined outside the modelled files are collaborators with a fixed outcome: `hello`, `handshakeReceiveSelect`, `accessMethodsRequest`, `accessMethods`, `acceptClose` and `close`. Running one appends a `Ran` event to the log.
- **Decoder and handler.** The message decoder and the application handler are functions supplied with the server.
- **Hanging.** A step that never returns ends in `Hangs`.

## Model

| member | source | states |
|---|---|---|
| Messages.Announcement | hems/eebus/ship/transport/pin.go:36-47 | the announced state is Required with permission Ok exactly when a local pin is configured, and None with no permission otherwise |
| PinExchange.ReadPinState | hems/eebus/ship/transport/pin.go:11-26 | a ConnectionPinState delivery is returned unchanged with no error; anything else yields the empty state with an error, "pin: invalid type" when the read itself succeeded, and otherwise the read's own error (a timeout at the deadline, the read error for a broken read); the read consumes one delivery unless the deadline has passed |
| PinExchange.InitialStatus | hems/eebus/ship/transport/pin.go:40-47 | `pinReceived` is set before any read exactly when no local pin is configured; `pinSent` never is |
| PinExchange.Step | hems/eebus/ship/transport/pin.go:61-95 | handling one message reads nothing more, writes exactly the reply that message calls for, and only gains bits |
| PinExchange.StepOutcome | hems/eebus/ship/transport/pin.go:61-95 | per variant: a pin sets `pinReceived` and fails only when the mismatch report for a wrong pin cannot be written; a state sets `pinSent`, fails with "remote pin required" when it demands a pin and none is configured, and otherwise fails only when our pin cannot be written; pin error, close and other variants end with their error and leave the bits alone |
| PinExchange.StepSets | hems/eebus/ship/transport/pin.go:63-85 | after one message a bit is set exactly when it was set before or the message is the variant that sets it |
| PinExchange.StepCooperative | hems/eebus/ship/transport/pin.go:61-95 | a message handled without error is a pin input or a pin state whose demand can be met |
| PinExchange.Loop | hems/eebus/ship/transport/pin.go:53-96 | the loop never gives back a delivery or a log entry, and it ends without error only with both bits set |
| PinExchange.LoopAdvances | hems/eebus/ship/transport/pin.go:54-96 | the loop consumes deliveries in order from the front and only appends to the log; the set of failing writes is unchanged |
| PinExchange.LoopGainsBits | hems/eebus/ship/transport/pin.go:54-85 | no bit set when the loop starts is cleared |
| PinExchange.LoopTimesOutOnlyWhenExhausted | hems/eebus/ship/transport/pin.go:53-59 | a running loop ends with a timeout only after every delivery before the deadline has been read |
| PinExchange.LoopEnds | hems/eebus/ship/transport/pin.go:53-59 | a running loop with nothing left to read times out at once; every delivery it reads but the last is a message; it fails with the read error exactly when the last delivery read is a failed read; and a timeout comes only with the deliveries used up, every one read a message, and the exchange incomplete |
| PinExchange.StepRaises | hems/eebus/ship/transport/pin.go:61-95 | one message leaves the error of its case: "remote pin mismatched" for a pin error, "remote closed" for a close, "invalid type" for any other message; a pin raises only the write error of a mismatch report, and a pin requirement only "remote pin required" without a configured pin or else the write error |
| PinExchange.LoopStopsWith | hems/eebus/ship/transport/pin.go:54-96 | a running loop that ends with an error other than the deadline or a failed read was stopped by the last message it read, and ends with that message's own error as StepRaises gives it |
| PinExchange.PinState | hems/eebus/ship/transport/pin.go:35-99 | the announcement is the first write; a failed announcement ends the exchange with WriteFailed before any read; without a local pin `pinReceived` holds; success implies both bits set |
| PinExchange.PinStateLog | hems/eebus/ship/transport/pin.go:49-95 | the log is the announcement followed by the replies to the deliveries read, in order and nothing else |
| PinExchange.PinStateStopsWith | hems/eebus/ship/transport/pin.go:49-98 | once the announcement is written, an exchange that fails other than at the deadline or on a failed read fails with the error of the last message it read |
| PinExchange.LoopSetsOnlyByReading | hems/eebus/ship/transport/pin.go:54-85 | a bit that was unset when the loop started is set at its successful end only because a delivery of the matching variant was read |
| PinExchange.LoopReadsOnlyCooperative | hems/eebus/ship/transport/pin.go:54-95 | a loop that ends without error read only pin inputs and pin states it could satisfy |
| PinExchange.PinStateSucceedsOnlyWhenBothDone | hems/eebus/ship/transport/pin.go:54-98 | success requires that the peer sent its pin state, sent a pin unless none was needed locally, and sent nothing that raised an error |
| PinExchange.PinStateSucceedsWithCooperativePeer | hems/eebus/ship/transport/pin.go:54-98 | conversely, with no failing write and a cooperative prefix of deliveries containing the pin state and, if needed, a pin, the exchange succeeds |
| PinExchange.MismatchedPinIsReportedNotFatal | hems/eebus/ship/transport/pin.go:63-71 | a wrong pin is answered with exactly one pin error and the exchange still succeeds |
| PinExchange.MatchingPinIsNotAnswered | hems/eebus/ship/transport/pin.go:63-71 | a right pin is answered with nothing |
| PinExchange.RemotePinRequiredButMissing | hems/eebus/ship/transport/pin.go:74-85 | a peer that demands a pin when none is configured is refused with "remote pin required" and no pin is sent |
| ShipServer.Init | hems/eebus/ship/server.go:26-41 | exactly the init message `[CmiTypeInit, 0x00]` is echoed back unchanged and passes iff that write succeeds, failing with the write error otherwise; any other bytes fail with the invalid-response error and nothing is written; a failed read returns its own error unchanged: a timeout at the deadline, the read error for a broken read, unexpected frame for a JSON frame |
| ShipServer.Selection | hems/eebus/ship/server.go:68 | the selection differs from the request only in its handshake type, which becomes Select |
| ShipServer.ProtocolHandshake | hems/eebus/ship/server.go:43-78 | the step reads exactly one request and only appends to the log; it logs only handshake events, never a handed-over message or a close; it always returns. Its exact log and error in each case are stated by ProtocolHandshakeRefuses, ProtocolHandshakeRejects and ProtocolHandshakeAccepts |
| ShipServer.ProtocolHandshakeRefuses | hems/eebus/ship/server.go:45-53 | a request that is not one record in a control message fails without a write: the deadline gives a timeout, a failed read the read error, a binary frame the unexpected-frame error, another message type "invalid type" with that type, and a control message with zero or several records "invalid length" |
| ShipServer.ProtocolHandshakeRejects | hems/eebus/ship/server.go:58-65 | a record that is not AnnounceMax with formats exactly [JSON] is answered with exactly one UnexpectedMessage error and fails with "invalid response" whatever that write did |
| ShipServer.ProtocolHandshakeAccepts | hems/eebus/ship/server.go:67-77 | an acceptable record is written back as the selection; the confirmation step runs only if that write succeeded; the step passes exactly when both the write and the confirmation pass; a refused selection write fails with the write error |
| ShipServer.SelectProtocol | hems/eebus/ship/server.go:67-77 | the request's one record is echoed with its type set to Select, no delivery is read, and the confirmation step is logged exactly when the write succeeded; a refused write fails with the write error, and otherwise the step ends with the confirmation's outcome |
| ShipServer.ProtocolHandshakeSelects | hems/eebus/ship/server.go:55-75 | with writes succeeding, an acceptable record leads to one read, the selection write and the confirmation step, and the step ends with the confirmation's outcome |
| ShipServer.PinLoop | hems/eebus/ship/server.go:99-127 | as written: the loop only reads forward and appends; it never returns an error but either passes or hangs; it hangs only with the deliveries used up and the last pin read not the configured one |
| ShipServer.PinLoopWritesOnlyMismatches | hems/eebus/ship/server.go:112-125 | as written: the loop writes nothing but pin error replies |
| ShipServer.PinState | hems/eebus/ship/server.go:80-130 | as written: the announcement is the first write; the result is WriteFailed exactly when the announcement write failed and otherwise never an error; with no configured pin nothing is read; everything after the announcement is a pin error |
| ShipServer.PinLoopHangsWithoutMatch | hems/eebus/ship/server.go:100-127 | the as-written loop hangs exactly when no delivery is a single pin input carrying the configured pin, and it has then read every delivery |
| ShipServer.PinLoopPassesAtFirstMatch | hems/eebus/ship/server.go:100-127 | when the as-written loop passes, the last delivery it read carries the configured pin and no earlier one does |
| ShipServer.PinLoopRepliesPerMismatch | hems/eebus/ship/server.go:112-125 | the loop writes one pin error per well-formed pin input with another pin, and nothing else |
| ShipServer.PinLoopIntended | hems/eebus/ship/server.go:99-127 | corrected: the loop only reads forward and appends, and it always returns |
| ShipServer.PinLoopIntendedEnds | hems/eebus/ship/server.go:100-127 | corrected: every delivery read but the last is a pin input with another pin, and the loop passes exactly when the last one read carries the configured pin |
| ShipServer.PinLoopIntendedFailures | hems/eebus/ship/server.go:100-127 | corrected: how the loop fails. At the deadline with nothing read it times out. A last delivery that is not a pin input ends it with that read's error: the read error, unexpected frame, "invalid type" or "invalid length". A last wrong pin ends it either with the failed write of the pin error just logged, or with a timeout once nothing is left to read. A timeout only ever comes with nothing left |
| ShipServer.PinInputError | hems/eebus/ship/server.go:101-110 | a delivery yields no error exactly when it is a control message with one pin input record |
| ShipServer.PinLoopIntendedStops | hems/eebus/ship/server.go:100-127 | corrected: a delivery that is not a pin input, carries the pin, or is a wrong pin whose reply cannot be written ends the loop after that one read, with the read's error, a pass, or the write failure after the one pin error |
| ShipServer.PinLoopIntendedWritesOnlyMismatches | hems/eebus/ship/server.go:112-125 | corrected: the loop writes nothing but pin error replies |
| ShipServer.PinStateIntended | hems/eebus/ship/server.go:80-130 | corrected: always returns; the announcement is the first write; a failed announcement is WriteFailed with nothing read |
| ShipServer.PinStateIntendedPassesOnPin | hems/eebus/ship/server.go:96-129 | corrected, with a pin configured: after a successful announcement every delivery read but the last is a wrong pin, and the step passes exactly when the last carries the configured pin; passing requires that the announcement was written |
| ShipServer.PinStateTakesPin | hems/eebus/ship/server.go:80-130 | as written, with writes succeeding: the step passes after writing the announcement, reading nothing without a pin and exactly one delivery when that delivery carries the pin |
| ShipServer.PinStateSpinsOnDeadConnection | hems/eebus/ship/server.go:100-105 | with a pin configured and a connection that fails on its first read, the as-written step hangs while the corrected step returns the read error |
| ShipServer.PinStateAgreesOnCleanInput | hems/eebus/ship/server.go:96-129 | when no write fails, every delivery is a well-formed pin input and the pin eventually arrives, the as-written and corrected steps coincide |
| ShipServer.RunHandshake | hems/eebus/ship/server.go:144-159 | the steps started are a non-empty prefix of the order; passing requires that all of them started; the chain only reads forward and appends, and logs only handshake events |
| ShipServer.RunHandshakeSteps | hems/eebus/ship/server.go:144-159 | the chain runs the steps it started one after the other, each on the connection the previous one left, and every one of them but the last passed |
| ShipServer.RunHandshakeEnds | hems/eebus/ship/server.go:144-159 | the chain ends on the connection and with the ending of the last step it started, so it stops early only at a step that did not pass |
| ShipServer.RunHandshakeStops | hems/eebus/ship/server.go:144-159 | a first step that does not pass ends the chain with that step's connection and ending, and nothing after it starts |
| ShipServer.RunHandshakeCons | hems/eebus/ship/server.go:144-159 | a first step that passes is followed by the rest of the chain on the connection it left |
| ShipServer.RunHandshakeEvents | hems/eebus/ship/server.go:144-159 | the chain logs the events of the steps it started, in order, and nothing else |
| ShipServer.RunHandshakeThrough | hems/eebus/ship/server.go:144-159 | when every step passes from the connection the previous one left, the chain passes, starts every step and ends where the last step did |
| ShipServer.InitEchoes | hems/eebus/ship/server.go:26-41 | a connection that opens with the init message and accepts writes passes init after one read and the echo |
| ShipServer.MessageLoop | hems/eebus/ship/server.go:161-191 | the loop only reads forward and appends to the log |
| ShipServer.MessageLoopEvents | hems/eebus/ship/server.go:161-191 | the loop logs only handled non-close messages and the close-accept run; it ends through the close-accept path exactly when that run is logged, as the last event and with that step's outcome; without a handler nothing is handled |
| ShipServer.MessageLoopStops | hems/eebus/ship/server.go:165-188 | a delivery that does not flow to the handler is the last one read; the loop accepts the close, with the close-accept outcome, exactly when it decodes to ConnectionClose; it logs nothing for an undecodable delivery or a missing handler, the close-accept run for a close, and the message handed over for a handler error |
| ShipServer.MessageLoopBreaks | hems/eebus/ship/server.go:165-190 | the error the loop breaks with: the read error for a failed read, unexpected frame for a binary frame, the decoder's error, "no handler" without a handler, and otherwise the handler's own error |
| ShipServer.MessageLoopDeliversInOrder | hems/eebus/ship/server.go:161-191 | every delivery before the last one read decoded to a non-close message that the handler accepted, and the events begin with those messages handled in the same order |
| ShipServer.MessageLoopRunsToDeadline | hems/eebus/ship/server.go:162-168 | if every delivery read flows to the handler, the loop has read the whole connection and stops with the deadline error |
| ShipServer.MessageLoopAcceptsOnClose | hems/eebus/ship/server.go:179-181 | the loop ends through the close-accept path exactly when the last delivery it read decodes to ConnectionClose |
| ShipServer.Conclude | hems/eebus/ship/server.go:161-199 | what follows the steps keeps the steps' list, and a failing or hanging handshake ends the session with the handshake's own ending |
| ShipServer.ConcludeEvents | hems/eebus/ship/server.go:161-199 | after a failed step only the ordered close is logged, and after a hanging step nothing; after success the loop's events are logged, then the close unless the peer closed, and the session returns the loop's outcome |
| ShipServer.Serve | hems/eebus/ship/server.go:138-200 | the steps started are a prefix of init, hello, protocolHandshake, pinState, accessMethodsRequest, accessMethods; a session that did not start all six does not pass |
| ShipServer.ServeSplits | hems/eebus/ship/server.go:144-199 | a session's events are the handshake's events followed by those that conclude it |
| ShipServer.HandshakeHandlesNothing | hems/eebus/ship/server.go:144-159 | the handshake steps never hand a message to the handler and never run either close path |
| ShipServer.ServeStopsAtFirstFailure | hems/eebus/ship/server.go:144-161 | when the handshake chain does not pass, the session keeps the chain's steps and ending, and neither the handler nor the close-accept path is ever reached |
| ShipServer.ServeCompletesHandshake | hems/eebus/ship/server.go:138-200 | with writes succeeding, the collaborators passing, and a peer that sends the init message, one acceptable protocol record and the pin if one is set, all six steps pass, read exactly those deliveries and log the init echo, hello, the selection, its confirmation, the pin announcement and the two access-method steps in order; the session then ends as the message loop does, closing unless the peer closed |
| ShipServer.ConcludeNeverHandlesClose | hems/eebus/ship/server.go:179-188 | no ConnectionClose is handed to the handler after the handshake |
| ShipServer.ServeNeverHandlesClose | hems/eebus/ship/server.go:179-188 | a ConnectionClose from the peer never reaches the handler in any session |
| ShipServer.ConcludeClosesOnceOnError | hems/eebus/ship/server.go:179-199 | after the handshake, the close-accept path excludes the ordered close; otherwise the ordered close is logged once on an error and not at all otherwise, always as the last event |
| ShipServer.ServeClosesOnceOnError | hems/eebus/ship/server.go:179-199 | a session through the close-accept path returns that step's outcome and never closes; any other session closes exactly once, as its last event, if it ends in an error, and never if not |
| ShipServer.ServeSucceedsOnlyThroughPeerClose | hems/eebus/ship/server.go:161-199 | a session returns success only after the peer's ConnectionClose ran the close-accept path and that step passed |
| Strings.Split | server/config/metadata.go:42 | there is always at least one piece, no piece holds the separator, and a string without separator is its own single piece |
| Strings.JoinSplit | server/config/metadata.go:42 | joining the pieces of a split with the separator gives back the string |
| Strings.SplitJoin | server/config/metadata.go:42 | splitting a join of separator-free pieces gives back the pieces |
| Strings.SplitOnce | server/config/metadata.go:45 | without a separator the result is the whole string; otherwise it is the text before the first separator and everything after it, which may hold more separators |
| Strings.SplitOnceAgreesWithSplit | server/config/metadata.go:42-45 | the first piece of a split-once is the first piece of a full split, and the second piece is the rest of the full split joined back |
| Strings.TrimSpace | server/config/metadata.go:66 | the result sits in the input with only white space before and after it, has no white space at either end, and is empty exactly when the input is all white space |
| Strings.TrimSpaceUnique | server/config/metadata.go:66 | any string with those properties is the trimmed string |
| Strings.TrimSpaceIdempotent | server/config/metadata.go:66 | trimming twice trims nothing more |
| Metadata.EntryKey | server/config/metadata.go:45 | an entry's key holds no "=" and is either the whole entry or its text before the first "=" |
| Metadata.EntryValue | server/config/metadata.go:45-50 | a matching entry without "=" yields the key; otherwise the entry is its key, "=", then the value |
| Metadata.Lookup | server/config/metadata.go:44-54 | the first entry whose key matches decides the result; with no such entry the result is empty |
| Metadata.TagKey | server/config/metadata.go:40-55 | the tag split on "," is looked up in that way: no matching entry gives "", and the first matching entry gives its value, or the key itself when it has no "=" |
| Metadata.HasTagKey | server/config/metadata.go:57-61 | true only when an entry with the key exists, and exactly when tagKey is non-empty |
| Metadata.HasTagKeyFollowsFirstEntry | server/config/metadata.go:57-61 | the first entry with the key decides presence: an entry `key=` with an empty value counts as absent, a bare entry counts as present unless the key is empty |
| Metadata.HasTagKeyIff | server/config/metadata.go:40-61 | for any key, hasTagKey holds exactly when an entry has the key and the first such entry has a non-empty value, or is bare with a non-empty key |
| Metadata.EntryOf | server/config/metadata.go:45-47 | an entry built as key, "=", value, with a key free of "=", has that key and that value |
| Metadata.ReadsValueOfFirstEntry | server/config/metadata.go:42-48 | in a tag whose first entry with the key is `key=value`, the whole value comes back, "=" signs included, whatever later entries say |
| Metadata.ReadsBareEntry | server/config/metadata.go:45-50 | in a tag whose first entry with the key is the bare key, the key itself comes back |
| Metadata.Enum | server/config/metadata.go:63-69 | the result has the input's length and order, and each element is the input element without surrounding white space |
| Metadata.EnumTrims | server/config/metadata.go:64-68 | each enum value equals the trimmed list element at the same position |
| Metadata.EnumIdempotent | server/config/metadata.go:64-68 | trimming the enum values again changes nothing |
| Metadata.Label | server/config/metadata.go:71-82 | the label is the ui `de` value when non-empty, else the translation of the name when non-empty, else the name; it is empty only when all three are |
| Metadata.LabelPrefersTag | server/config/metadata.go:73-76 | a field tagged `de=Leistung` is labelled "Leistung" whatever the translation says |
| Metadata.LabelFallsBackOnEmptyValue | server/config/metadata.go:73-79 | a `de=` entry with an empty value falls back to the translation, then to the name |

## Left out

- Websocket and transport I/O are not part of this model: `readBinary`, `writeBinary`, `readJSON`, `writeJSON`, `waitJSON`, `ReadMessage` and the `Transport` type. Reads come from a finite delivery list and writes go to a log.
- A read that finds a JSON frame where a binary one is expected, or the reverse, fails with an unexpected-frame error. The transport's own handling of that case is not part of this model.
- JSON (de)serialisation and `DecodeMessage` are not part of this model. Deliveries are already decoded, and the server's decoder is a function parameter.
- Timers are left out. Every deadline becomes exhaustion of the delivery list, and pin.go's single timer keeps its whole-loop meaning.
- `waitJSON` in the message loop is treated like the other reads: it fails once the deliveries are used up.
- `hello`, `handshakeReceiveSelect`, `accessMethodsRequest`, `accessMethods`, `acceptClose` and `close` are defined outside the modelled files. Each is a fixed outcome that consumes no modelled deliveries.
- The application handler is a pure function of the message, so a handler that changes its answer over time is not covered.
- Logging is left out (`Logger`, `NopLogger`, `Printf` at server.go:173). It has no behaviour.
- Errors are kinds, not formatted texts. For example, init's message with the received bytes in hex keeps only the bytes.
- `CmiTypeInit` (0), `CmiTypeControl` (1) and the format name "JSON-UTF8" are defined outside the modelled files. Their values are taken from the SHIP specification.
- `Annotate`, `kind`, `value` and `prependType` are left out. They are driven by Go reflection and a struct-walking library.
- `translate` is a function parameter.
- `Metadata.Tag`: Go's quoted tag syntax (`reflect.StructTag.Get`) is not modelled. A field's tags are given already separated by tag name.
- `Strings.Split`: only the one-character separators used here ("," "=" " ") are modelled. Strings are sequences of code points, so invalid UTF-8 is not covered.
- `ShipServer.Serve` runs the pin step as written, not the corrected one (see Findings), because the handshake chain must reproduce the code. The properties about which kinds of events a session logs are expected to hold with either step, but are proved only for the as-written one. `ShipServer.ServeCompletesHandshake` depends on the as-written step through `ShipServer.PinStateTakesPin`.

## Findings

| source | as written | input that shows it | evidently intended | confidence | as-written member | corrected member |
|---|---|---|---|---|---|---|
| hems/eebus/ship/server.go:100-102 | the read inside the pin loop declares a new `err`, so the loop condition only ever sees the announcement's write error; read failures, wrong frame types, wrong lengths and failed pin-error writes are all dropped, and once the deadline has passed every read fails and the loop never ends | a pin is configured, the announcement write succeeds, and the peer's connection then fails (one failed read, then nothing before the deadline) | an error inside the loop ends it and is returned by `pinState`, so `Serve` closes the connection and reports it | not executed | ShipServer.PinState, ShipServer.PinStateSpinsOnDeadConnection | ShipServer.PinStateIntended |

=== FILE: base.dfy ===
/** Values shared by every part of the model: bytes, optional values, and the
    errors a SHIP session can end with. */
module Base {
  newtype byte = b: int | 0 <= b < 0x100

  datatype Option<+T> = None | Some(value: T)

  /** The errors of the SHIP handshake and of the transport beneath it. The
      comment after each names the message the Go code builds for it. */
  datatype Error =
    | Timeout                            // the read deadline passed
    | ReadFailed                         // the connection failed while reading
    | WriteFailed                        // the connection refused a write
    | UnexpectedFrame                    // a binary frame where JSON was expected, or the reverse
    | InitInvalidResponse(got: seq<byte>)  // "init: invalid response"
    | HandshakeInvalidType(typ: byte)    // "handshake: invalid type"
    | HandshakeInvalidLength             // "handshake: invalid length"
    | HandshakeInvalidResponse           // "handshake: invalid response"
    | PinInvalidType                     // "pin: invalid type"
    | PinInvalidLength                   // "pin: invalid length"
    | PinRemoteRequired                  // "pin: remote pin required"
    | PinRemoteMismatched                // "pin: remote pin mismatched"
    | PinRemoteClosed                    // "pin: remote closed"
    | NoHandler                          // "no handler"
    | External(reason: string)           // raised by a collaborator whose body is not modelled

  /** The result of a step that yields nothing but success or an error. */
  datatype Outcome = Pass | Fail(error: Error)

  /** The result of a step that yields a value or an error. */
  datatype Result<+T> = Ok(value: T) | Err(error: Error)
}

=== FILE: channel.dfy ===
/** One side of a framed connection, as the handshake sees it.

    The reads are a finite list: what the peer delivers, in order, before the
    read deadline passes. Once the list is used up every further read fails.
    The writes are appended to a log together with other observable events,
    and `failing` names the log positions whose write the connection refuses. */
module Channel {
  datatype Conn<In, Out> = Conn(pending: seq<In>, failing: set<nat>, log: seq<Out>)
  {
    /** No delivery is left before the deadline. */
    predicate Exhausted() { |pending| == 0 }

    /** The next delivery. */
    function Next(): In
      requires !Exhausted()
    {
      pending[0]
    }

    /** The connection once the next delivery has been read. */
    function Consume(): (c: Conn<In, Out>)
      requires !Exhausted()
    {
      this.(pending := pending[1..])
    }

    /** Whether a write appended to the log now would succeed. */
    predicate WriteOk() { |log| !in failing }

    /** Appends one entry: a write attempt or another observable event. */
    function Append(o: Out): (c: Conn<In, Out>)
    {
      this.(log := log + [o])
    }
  }

  /** `after` is `before` with some deliveries read and some entries appended. */
  ghost predicate Advances<In, Out>(before: Conn<In, Out>, after: Conn<In, Out>)
  {
    && after.failing == before.failing
    && |after.pending| <= |before.pending|
    && after.pending == before.pending[|before.pending| - |after.pending|..]
    && |before.log| <= |after.log|
    && after.log[..|before.log|] == before.log
  }

  /** The deliveries read between `before` and `after`. */
  function Consumed<In, Out>(before: Conn<In, Out>, after: Conn<In, Out>): seq<In>
    requires |after.pending| <= |before.pending|
  {
    before.pending[..|before.pending| - |after.pending|]
  }

  /** The entries appended between `before` and `after`. */
  function Appended<In, Out>(before: Conn<In, Out>, after: Conn<In, Out>): seq<Out>
    requires |before.log| <= |after.log|
  {
    after.log[|before.log|..]
  }

  /** Reading the next delivery and then more reads that delivery first. */
  lemma ConsumedAfterNext<In, Out>(a: Conn<In, Out>, b: Conn<In, Out>, c: Conn<In, Out>)
    requires !a.Exhausted() && b.pending == a.pending[1..] && |c.pending| <= |b.pending|
    ensures Consumed(a, c) == [a.Next()] + Consumed(b, c)
  {
  }

  lemma AdvancesReflexive<In, Out>(c: Conn<In, Out>)
    ensures Advances(c, c) && Consumed(c, c) == [] && Appended(c, c) == []
  {
  }

  lemma AdvancesTransitive<In, Out>(a: Conn<In, Out>, b: Conn<In, Out>, c: Conn<In, Out>)
    requires Advances(a, b) && Advances(b, c)
    ensures Advances(a, c)
    ensures Consumed(a, c) == Consumed(a, b) + Consumed(b, c)
    ensures Appended(a, c) == Appended(a, b) + Appended(b, c)
  {
    assert c.log[..|a.log|] == c.log[..|b.log|][..|a.log|];
    assert c.pending == a.pending[|a.pending| - |c.pending|..];
  }
}

=== FILE: messages.dfy ===
/** The decoded SHIP messages the handshake reads and writes. The Go code keeps
    enumerated fields as strings; each closed set of values becomes a
    datatype here, with an explicit constructor for the empty string that a
    zero-valued Go struct carries. */
module Messages {
  /** PinState of a ConnectionPinState message; PinUnset is the empty string. */
  datatype PinStateKind = PinUnset | PinRequired | PinOptional | PinOk | PinNone

  /** InputPermission of a ConnectionPinState message; NoPermission is the empty string. */
  datatype InputPermission = NoPermission | PermissionBusy | PermissionOk

  datatype PinStateRecord = PinStateRecord(state: PinStateKind, permission: InputPermission)

  /** The zero value of a ConnectionPinState. */
  const EmptyPinState := PinStateRecord(PinUnset, NoPermission)

  /** The requirement a side announces for its local pin: a pin is required,
      and may be entered, exactly when one is configured. */
  function Announcement(local: string): (r: PinStateRecord)
    ensures r.state == PinRequired <==> local != ""
    ensures r.permission == PermissionOk <==> local != ""
    ensures local == "" ==> r.state == PinNone && r.permission == NoPermission
  {
    if local != "" then PinStateRecord(PinRequired, PermissionOk)
    else PinStateRecord(PinNone, NoPermission)
  }

  /** A peer in this state expects to be sent a pin. */
  predicate DemandsPin(s: PinStateKind)
  {
    s == PinOptional || s == PinRequired
  }

  /** The typed variants a decoded SHIP message can be. */
  datatype Message =
    | ConnectionPinState(pinState: PinStateRecord)
    | ConnectionPinInput(pin: string)
    | ConnectionPinError(code: int)
    | ConnectionClose
    | OtherMessage(name: string)   // hello, protocol handshake, access methods, data, ...

  datatype HandshakeType = AnnounceMax | Select | UnknownHandshakeType

  datatype Version = Version(major: nat, minor: nat)

  /** One ProtocolHandshake record of the protocol-format negotiation. */
  datatype HandshakeRecord = HandshakeRecord(handshakeType: HandshakeType, version: Version, formats: seq<string>)

  /** The only message format the server accepts (JSON-UTF8 in the SHIP specification). */
  const FormatJson: string := "JSON-UTF8"

  /** A JSON control or data message after unmarshalling, reduced to the
      fields the handshake looks at; `rest` stands for everything else. */
  datatype Envelope = Envelope(protocolHandshake: seq<HandshakeRecord>, connectionPinInput: seq<string>, rest: string)
}

=== FILE: metadata.dfy ===
/** Struct-tag parsing for the configuration metadata: reading a key from a
    comma-separated tag, testing for it, trimming enum values, and choosing
    a field's label. A tag entry is `key` or `key=value`; the value is
    everything after the first "=". */
module Metadata {
  import opened Strings

  /** A struct field as the parser sees it: its name and its tag strings,
      keyed by tag name. */
  datatype Field = Field(name: string, tags: map<string, string>)

  /** The text of tag `tag` of `f`, empty when the field has none. */
  function Tag(f: Field, tag: string): (r: string)
    ensures tag !in f.tags ==> r == ""
    ensures tag in f.tags ==> r == f.tags[tag]
  {
    if tag in f.tags then f.tags[tag] else ""
  }

  /** The key of an entry: its text up to the first "=". */
  function EntryKey(kv: string): (k: string)
    ensures '=' !in k
    ensures k == kv || (|k| < |kv| && kv[..|k| + 1] == k + "=")
  {
    var parts := SplitOnce(kv, '=');
    assert |parts| == 2 ==> kv[..|parts[0]| + 1] == parts[0] + "=";
    parts[0]
  }

  /** What a matching entry yields: the text after the first "=", or the key
      itself when the entry has no "=". */
  function EntryValue(kv: string, key: string): (v: string)
    ensures '=' !in kv ==> v == key
    ensures '=' in kv ==> kv == EntryKey(kv) + "=" + v
  {
    var parts := SplitOnce(kv, '=');
    if |parts| > 1 then parts[1] else key
  }

  /** Entry `i` is the first one whose key is `key`. */
  predicate FirstWithKey(entries: seq<string>, key: string, i: nat)
  {
    && i < |entries|
    && EntryKey(entries[i]) == key
    && forall j :: 0 <= j < i ==> EntryKey(entries[j]) != key
  }

  predicate HasEntry(entries: seq<string>, key: string)
  {
    exists i :: 0 <= i < |entries| && EntryKey(entries[i]) == key
  }

  /** The loop of tagKey over the entries: the first entry whose key matches
      decides; no match yields the empty string. */
  function Lookup(entries: seq<string>, key: string): (r: string)
    ensures !HasEntry(entries, key) ==> r == ""
    ensures forall i: nat :: FirstWithKey(entries, key, i) ==> r == EntryValue(entries[i], key)
  {
    if entries == [] then ""
    else if EntryKey(entries[0]) == key then EntryValue(entries[0], key)
    else
      SkipFirst(entries, key);
      Lookup(entries[1..], key)
  }

  /** Past a first entry with another key, the search goes on in the rest. */
  lemma SkipFirst(entries: seq<string>, key: string)
    requires entries != [] && EntryKey(entries[0]) != key
    ensures forall i: nat :: FirstWithKey(entries, key, i) ==> i > 0 && FirstWithKey(entries[1..], key, i - 1)
    ensures forall i: nat :: FirstWithKey(entries[1..], key, i) ==> FirstWithKey(entries, key, i + 1)
    ensures HasEntry(entries[1..], key) <==> HasEntry(entries, key)
  {
    forall i: nat | FirstWithKey(entries[1..], key, i)
      ensures FirstWithKey(entries, key, i + 1)
    {
      forall j | 1 <= j < i + 1
        ensures EntryKey(entries[j]) != key
      {
        assert entries[j] == entries[1..][j - 1];
      }
    }
    if HasEntry(entries, key) {
      var i :| 0 <= i < |entries| && EntryKey(entries[i]) == key;
      assert EntryKey(entries[1..][i - 1]) == key;
    }
    forall i: nat | FirstWithKey(entries, key, i)
      ensures i > 0 && FirstWithKey(entries[1..], key, i - 1)
    {
      forall j | 0 <= j < i - 1
        ensures EntryKey(entries[1..][j]) != key
      {
        assert entries[1..][j] == entries[j + 1];
      }
    }
    if HasEntry(entries[1..], key) {
      var i :| 0 <= i < |entries[1..]| && EntryKey(entries[1..][i]) == key;
      assert EntryKey(entries[i + 1]) == key;
    }
  }

  /** A present key always has a first entry. */
  lemma {:induction false} FirstWithKeyExists(entries: seq<string>, key: string) returns (i: nat)
    requires HasEntry(entries, key)
    ensures FirstWithKey(entries, key, i)
  {
    if EntryKey(entries[0]) == key {
      i := 0;
    } else {
      SkipFirst(entries, key);
      var i' := FirstWithKeyExists(entries[1..], key);
      i := i' + 1;
    }
  }

  /** tagKey: the value of `key` in tag `tag`, the key itself for an entry
      without value, and the empty string when no entry has that key. */
  function TagKey(f: Field, tag: string, key: string): (r: string)
    ensures !HasEntry(Split(Tag(f, tag), ','), key) ==> r == ""
    ensures forall i: nat :: FirstWithKey(Split(Tag(f, tag), ','), key, i) ==> r == EntryValue(Split(Tag(f, tag), ',')[i], key)
  {
    Lookup(Split(Tag(f, tag), ','), key)
  }

  /** hasTagKey: whether tagKey finds a non-empty result. A key with an
      empty value counts as absent; so does the empty key. */
  function HasTagKey(f: Field, tag: string, key: string): (b: bool)
    ensures b ==> HasEntry(Split(Tag(f, tag), ','), key)
    ensures b <==> TagKey(f, tag, key) != ""
  {
    TagKey(f, tag, key) != ""
  }

  /** The first entry with the key decides what a tag says about it. */
  lemma HasTagKeyFollowsFirstEntry(f: Field, tag: string, key: string, i: nat)
    requires FirstWithKey(Split(Tag(f, tag), ','), key, i)
    ensures var kv := Split(Tag(f, tag), ',')[i];
            HasTagKey(f, tag, key) <==> if '=' in kv then kv != key + "=" else key != ""
  {
    var kv := Split(Tag(f, tag), ',')[i];
    if '=' in kv {
      var v := EntryValue(kv, key);
      assert kv == key + "=" + v;
      assert v == "" <==> kv == key + "=" by {
        if kv == key + "=" {
          assert |v| == 0;
        }
      }
    }
  }

  /** hasTagKey for any key: it holds exactly when the tag has an entry with
      the key and the first such entry carries a non-empty value (or is the
      bare, non-empty key). */
  lemma HasTagKeyIff(f: Field, tag: string, key: string)
    ensures var entries := Split(Tag(f, tag), ',');
            HasTagKey(f, tag, key) <==>
              exists i: nat :: FirstWithKey(entries, key, i) &&
                (if '=' in entries[i] then entries[i] != key + "=" else key != "")
  {
    var entries := Split(Tag(f, tag), ',');
    if HasEntry(entries, key) {
      var i := FirstWithKeyExists(entries, key);
      HasTagKeyFollowsFirstEntry(f, tag, key, i);
    }
  }

  /** An entry built from a key free of "=" has that key and that value. */
  lemma EntryOf(key: string, value: string)
    requires '=' !in key
    ensures EntryKey(key + "=" + value) == key
    ensures EntryValue(key + "=" + value, key) == value
  {
    var kv := key + "=" + value;
    assert kv[..|key|] == key;
    IndexOfFirst(kv, '=', |key|);
    assert kv[|key| + 1..] == value;
  }

  /** Entries free of `c` on both sides of one more such entry. */
  lemma NoneHolds(before: seq<string>, kv: string, after: seq<string>, c: char)
    requires forall j :: 0 <= j < |before| ==> c !in before[j]
    requires c !in kv
    requires forall j :: 0 <= j < |after| ==> c !in after[j]
    ensures forall j :: 0 <= j < |before + [kv] + after| ==> c !in (before + [kv] + after)[j]
  {
    var entries := before + [kv] + after;
    forall j | 0 <= j < |entries|
      ensures c !in entries[j]
    {
      if j < |before| {
        assert entries[j] == before[j];
      } else if j > |before| {
        assert entries[j] == after[j - |before| - 1];
      }
    }
  }

  /** An entry with the key after entries without it is the first with it. */
  lemma FirstAfter(before: seq<string>, kv: string, after: seq<string>, key: string)
    requires forall j :: 0 <= j < |before| ==> EntryKey(before[j]) != key
    requires EntryKey(kv) == key
    ensures FirstWithKey(before + [kv] + after, key, |before|)
  {
    var entries := before + [kv] + after;
    forall j | 0 <= j < |before|
      ensures EntryKey(entries[j]) != key
    {
      assert entries[j] == before[j];
    }
  }

  /** The value of a tag built of `before`, `kv` and `after` when `kv` is the
      first entry with the key. */
  lemma ReadsFirst(f: Field, tag: string, before: seq<string>, kv: string, after: seq<string>, key: string)
    requires forall j :: 0 <= j < |before| ==> ',' !in before[j] && EntryKey(before[j]) != key
    requires ',' !in kv && EntryKey(kv) == key
    requires forall j :: 0 <= j < |after| ==> ',' !in after[j]
    requires Tag(f, tag) == Join(before + [kv] + after, ',')
    ensures TagKey(f, tag, key) == EntryValue(kv, key)
  {
    var entries := before + [kv] + after;
    NoneHolds(before, kv, after, ',');
    SplitJoin(entries, ',');
    assert Split(Tag(f, tag), ',') == entries;
    FirstAfter(before, kv, after, key);
    assert entries[|before|] == kv;
  }

  /** Reading a key from a tag built of entries: the value of the first entry
      with that key is returned whole, "=" signs included. */
  lemma ReadsValueOfFirstEntry(f: Field, tag: string, before: seq<string>, key: string, value: string, after: seq<string>)
    requires '=' !in key
    requires forall j :: 0 <= j < |before| ==> ',' !in before[j] && EntryKey(before[j]) != key
    requires ',' !in key && ',' !in value
    requires forall j :: 0 <= j < |after| ==> ',' !in after[j]
    requires Tag(f, tag) == Join(before + [key + "=" + value] + after, ',')
    ensures TagKey(f, tag, key) == value
  {
    var kv := key + "=" + value;
    assert ',' !in kv;
    EntryOf(key, value);
    ReadsFirst(f, tag, before, kv, after, key);
  }

  /** An entry with no "=" that carries the key yields the key itself. */
  lemma ReadsBareEntry(f: Field, tag: string, before: seq<string>, key: string, after: seq<string>)
    requires '=' !in key && ',' !in key
    requires forall j :: 0 <= j < |before| ==> ',' !in before[j] && EntryKey(before[j]) != key
    requires forall j :: 0 <= j < |after| ==> ',' !in after[j]
    requires Tag(f, tag) == Join(before + [key] + after, ',')
    ensures TagKey(f, tag, key) == key
  {
    assert SplitOnce(key, '=') == [key];
    ReadsFirst(f, tag, before, key, after, key);
  }

  /** enum: every element of the list, trimmed of surrounding white space,
      in the same order. */
  function Enum(list: seq<string>): (r: seq<string>)
    ensures |r| == |list|
    ensures forall i :: 0 <= i < |r| ==> Padded(list[i], r[i], LeadingSpace(list[i])) && Trimmed(r[i])
  {
    if list == [] then []
    else [TrimSpace(list[0])] + Enum(list[1..])
  }

  /** The enum values are exactly the trimmed list elements. */
  lemma EnumTrims(list: seq<string>)
    ensures forall i :: 0 <= i < |list| ==> Enum(list)[i] == TrimSpace(list[i])
  {
    var r := Enum(list);
    forall i | 0 <= i < |list|
      ensures r[i] == TrimSpace(list[i])
    {
      TrimSpaceUnique(list[i], r[i], LeadingSpace(list[i]));
    }
  }

  /** Trimming enum values a second time changes nothing. */
  lemma EnumIdempotent(list: seq<string>)
    ensures Enum(Enum(list)) == Enum(list)
  {
    var r := Enum(list);
    EnumTrims(list);
    EnumTrims(r);
    forall i | 0 <= i < |list|
      ensures Enum(r)[i] == r[i]
    {
      TrimSpaceIdempotent(list[i]);
    }
  }

  /** label: the `de` entry of the `ui` tag when it gives a non-empty text,
      otherwise the translation of the field name when that is non-empty,
      otherwise the field name. */
  function Label(f: Field, translate: string -> string): (r: string)
    ensures r == TagKey(f, "ui", "de") || r == translate(f.name) || r == f.name
    ensures HasTagKey(f, "ui", "de") ==> r == TagKey(f, "ui", "de")
    ensures !HasTagKey(f, "ui", "de") && translate(f.name) != "" ==> r == translate(f.name)
    ensures r == "" <==> !HasTagKey(f, "ui", "de") && translate(f.name) == "" && f.name == ""
  {
    var tagged := TagKey(f, "ui", "de");
    if tagged != "" then tagged
    else
      var translated := translate(f.name);
      if translated != "" then translated else f.name
  }

  /** A field tagged `ui:"de=Leistung"` is labelled "Leistung", whatever the
      translation says. */
  lemma LabelPrefersTag(translate: string -> string)
    ensures Label(Field("Power", map["ui" := "de=Leistung"]), translate) == "Leistung"
  {
    var f := Field("Power", map["ui" := "de=Leistung"]);
    assert Join([] + ["de" + "=" + "Leistung"] + [], ',') == "de=Leistung";
    ReadsValueOfFirstEntry(f, "ui", [], "de", "Leistung", []);
  }

  /** A `de` entry with an empty value counts as absent, so the label falls
      back to the translation, and to the name when that is empty too. */
  lemma LabelFallsBackOnEmptyValue(translate: string -> string)
    ensures var f := Field("Power", map["ui" := "de="]);
            Label(f, translate) == (if translate("Power") != "" then translate("Power") else "Power")
  {
    var f := Field("Power", map["ui" := "de="]);
    assert Join([] + ["de" + "=" + ""] + [], ',') == "de=";
    ReadsValueOfFirstEntry(f, "ui", [], "de", "", []);
  }
}

=== FILE: pin.dfy ===
/** The bidirectional PIN exchange of the SHIP transport: connection PIN
    verification, section 13.4.4.3 of the SHIP specification.

    Each side announces whether it requires a pin, then reads messages until
    it has both received the peer's pin (or needs none) and sent its own (or
    was not asked for one). A single deadline, armed once before the loop,
    bounds the whole exchange: the deliveries of the connection are those
    that arrive before it. */
module PinExchange {
  import opened Base
  import opened Channel
  import opened Messages

  /** The two completion bits of the exchange. */
  datatype Bit = PinReceived | PinSent

  /** Which completion bits are set. */
  datatype Status = Status(received: bool, sent: bool)

  const PinCompleted := Status(true, true)

  /** `status` with `bit` set as well. */
  function With(status: Status, bit: Bit): (r: Status)
  {
    if bit == PinReceived then status.(received := true) else status.(sent := true)
  }

  /** Every bit set in `s` is set in `r`. */
  predicate Includes(r: Status, s: Status)
  {
    (s.received ==> r.received) && (s.sent ==> r.sent)
  }

  /** What one read of the transport yields: a decoded message, or a failure
      of the connection. */
  datatype Incoming = Received(msg: Message) | Broken

  type Link = Conn<Incoming, Message>

  /** The connection, the completion bits, and the error raised so far. */
  datatype Exchange = Exchange(link: Link, status: Status, err: Option<Error>)

  predicate Has(status: Status, bit: Bit) { if bit == PinReceived then status.received else status.sent }

  /** The error a write raises. */
  function WriteError(link: Link): (r: Option<Error>)
    ensures r.None? <==> link.WriteOk()
    ensures r.Some? ==> r.value == WriteFailed
  {
    if link.WriteOk() then None else Some(WriteFailed)
  }

  // ---------------------------------------------------------------------------
  // readPinState

  datatype PinStateRead = PinStateRead(link: Link, pinState: PinStateRecord, err: Option<Error>)

  /** The next delivery is a ConnectionPinState. */
  predicate LeadsWithPinState(link: Link)
  {
    !link.Exhausted() && link.Next().Received? && link.Next().msg.ConnectionPinState?
  }

  /** Reads the peer's pin requirement: a ConnectionPinState comes back as it
      is; anything else yields the empty state and an error, "pin: invalid
      type" when the read itself succeeded. */
  function ReadPinState(link: Link): (r: PinStateRead)
    ensures r.link == (if link.Exhausted() then link else link.Consume())
    ensures LeadsWithPinState(link) ==> r.pinState == link.Next().msg.pinState && r.err.None?
    ensures !LeadsWithPinState(link) ==> r.pinState == EmptyPinState && r.err.Some?
    ensures !link.Exhausted() && link.Next().Received? && !LeadsWithPinState(link) ==> r.err == Some(PinInvalidType)
    ensures link.Exhausted() ==> r.err == Some(Timeout)
    ensures !link.Exhausted() && link.Next().Broken? ==> r.err == Some(ReadFailed)
  {
    if link.Exhausted() then PinStateRead(link, EmptyPinState, Some(Timeout))
    else match link.Next()
      case Broken => PinStateRead(link.Consume(), EmptyPinState, Some(ReadFailed))
      case Received(ConnectionPinState(p)) => PinStateRead(link.Consume(), p, None)
      case Received(_) => PinStateRead(link.Consume(), EmptyPinState, Some(PinInvalidType))
  }

  // ---------------------------------------------------------------------------
  // PinState

  /** The completion bits before any read: nothing to receive when no local
      pin is configured. */
  function InitialStatus(local: string): (s: Status)
    ensures Has(s, PinReceived) <==> local == ""
    ensures !Has(s, PinSent)
  {
    var status := Status(false, false);
    if local != "" then status else With(status, PinReceived)
  }

  /** What the exchange writes in answer to one delivery, whatever the write's
      outcome: a pin error for a wrong pin, our pin for a peer that asks for
      one, and nothing otherwise. */
  function Reply(local: string, remote: string, item: Incoming): seq<Message>
  {
    match item
    case Received(ConnectionPinInput(pin)) =>
      if pin != local then [ConnectionPinError(1)] else []
    case Received(ConnectionPinState(p)) =>
      if DemandsPin(p.state) && remote != "" then [ConnectionPinInput(remote)] else []
    case _ => []
  }

  function Replies(local: string, remote: string, items: seq<Incoming>): seq<Message>
  {
    if items == [] then [] else Reply(local, remote, items[0]) + Replies(local, remote, items[1..])
  }

  /** Handles one decoded message of the exchange loop. */
  function Step(local: string, remote: string, link: Link, status: Status, m: Message): (r: Exchange)
    ensures r.link.pending == link.pending && r.link.failing == link.failing
    ensures r.link.log == link.log + Reply(local, remote, Received(m))
    ensures Includes(r.status, status)
  {
    match m
    case ConnectionPinInput(pin) =>
      if pin != local then
        Exchange(link.Append(ConnectionPinError(1)), With(status, PinReceived), WriteError(link))
      else
        Exchange(link, With(status, PinReceived), None)
    case ConnectionPinState(p) =>
      if DemandsPin(p.state) then
        if remote != "" then
          Exchange(link.Append(ConnectionPinInput(remote)), With(status, PinSent), WriteError(link))
        else
          Exchange(link, With(status, PinSent), Some(PinRemoteRequired))
      else
        Exchange(link, With(status, PinSent), None)
    case ConnectionPinError(_) => Exchange(link, status, Some(PinRemoteMismatched))
    case ConnectionClose => Exchange(link, status, Some(PinRemoteClosed))
    case OtherMessage(_) => Exchange(link, status, Some(PinInvalidType))
  }

  /** The outcome of one message: a pin sets the received bit and fails only
      when a mismatch report cannot be written; a pin requirement sets the sent
      bit and fails when a demanded pin is missing or cannot be written; every
      other message is an error that leaves the bits alone. */
  lemma StepOutcome(local: string, remote: string, link: Link, status: Status, m: Message)
    ensures var r := Step(local, remote, link, status, m);
            && (m.ConnectionPinInput? ==>
                  && r.status == With(status, PinReceived)
                  && (r.err.None? <==> m.pin == local || link.WriteOk())
                  && (r.err.Some? ==> r.err == Some(WriteFailed)))
            && (m.ConnectionPinState? ==> r.status == With(status, PinSent))
            && (m.ConnectionPinState? && !DemandsPin(m.pinState.state) ==> r.err.None?)
            && (m.ConnectionPinState? && DemandsPin(m.pinState.state) && remote == "" ==> r.err == Some(PinRemoteRequired))
            && (m.ConnectionPinState? && DemandsPin(m.pinState.state) && remote != "" ==> (r.err.None? <==> link.WriteOk()))
            && (m.ConnectionPinError? ==> r.status == status && r.err == Some(PinRemoteMismatched))
            && (m.ConnectionClose? ==> r.status == status && r.err == Some(PinRemoteClosed))
            && (m.OtherMessage? ==> r.status == status && r.err == Some(PinInvalidType))
  {
  }

  /** Handling a message sets a bit exactly when it is the message that bit
      records, and clears none. */
  lemma StepSets(local: string, remote: string, link: Link, status: Status, m: Message, bit: Bit)
    ensures Has(Step(local, remote, link, status, m).status, bit) <==> Has(status, bit) || Sets(bit, m)
  {
  }

  /** A message handled without error is one the loop can cooperate with. */
  lemma StepCooperative(local: string, remote: string, link: Link, status: Status, m: Message)
    ensures Step(local, remote, link, status, m).err.None? ==> Cooperative(remote, Received(m))
  {
  }

  /** The exchange after the next delivery, a message, has been read and
      handled. */
  function After(local: string, remote: string, x: Exchange): (y: Exchange)
    requires !x.link.Exhausted() && x.link.Next().Received?
    ensures y.link.pending == x.link.pending[1..] && y.link.failing == x.link.failing
    ensures y.link.log == x.link.log + Reply(local, remote, x.link.Next())
    ensures Includes(y.status, x.status)
    ensures y.err != Some(Timeout) && y.err != Some(ReadFailed)
  {
    Step(local, remote, x.link.Consume(), x.status, x.link.Next().msg)
  }

  /** The read loop: runs while no error is raised and the exchange is not
      complete. A failed read, including the passing of the deadline, ends it. */
  function Loop(local: string, remote: string, x: Exchange): (r: Exchange)
    ensures |r.link.pending| <= |x.link.pending| && |x.link.log| <= |r.link.log|
    ensures r.err.None? ==> r.status == PinCompleted
    decreases |x.link.pending|
  {
    if x.err.Some? || x.status == PinCompleted then x
    else if x.link.Exhausted() then x.(err := Some(Timeout))
    else match x.link.Next()
      case Broken => Exchange(x.link.Consume(), x.status, Some(ReadFailed))
      case Received(_) => Loop(local, remote, After(local, remote, x))
  }

  /** The loop reads deliveries in order and only appends to the log. */
  lemma {:induction false} LoopAdvances(local: string, remote: string, x: Exchange)
    ensures Advances(x.link, Loop(local, remote, x).link)
    decreases |x.link.pending|
  {
    if x.err.None? && x.status != PinCompleted && !x.link.Exhausted() && x.link.Next().Received? {
      var y := After(local, remote, x);
      var r := Loop(local, remote, y);
      assert Loop(local, remote, x) == r;
      LoopAdvances(local, remote, y);
      AdvancesTransitive(x.link, y.link, r.link);
    }
  }

  /** The loop only gains bits. */
  lemma {:induction false} LoopGainsBits(local: string, remote: string, x: Exchange)
    ensures Includes(Loop(local, remote, x).status, x.status)
    decreases |x.link.pending|
  {
    if x.err.None? && x.status != PinCompleted && !x.link.Exhausted() && x.link.Next().Received? {
      var y := After(local, remote, x);
      assert Loop(local, remote, x) == Loop(local, remote, y);
      LoopGainsBits(local, remote, y);
    }
  }

  /** The loop raises a timeout only once the deliveries before the deadline
      are used up. */
  lemma {:induction false} LoopTimesOutOnlyWhenExhausted(local: string, remote: string, x: Exchange)
    requires x.err.None? && x.status != PinCompleted
    ensures var r := Loop(local, remote, x);
            r.err == Some(Timeout) ==> r.link.Exhausted()
    decreases |x.link.pending|
  {
    if !x.link.Exhausted() && x.link.Next().Received? {
      var y := After(local, remote, x);
      assert Loop(local, remote, x) == Loop(local, remote, y);
      if y.err.None? && y.status != PinCompleted {
        LoopTimesOutOnlyWhenExhausted(local, remote, y);
      }
    }
  }

  /** How a running loop ends: every delivery it reads but the last is a
      message; it fails with a read error exactly when the last delivery it
      reads is a broken read; and it times out only once the deliveries are
      used up, every one read being a message, with the exchange incomplete,
      which it does at once when none is left. */
  lemma {:induction false} LoopEnds(local: string, remote: string, x: Exchange)
    requires x.err.None? && x.status != PinCompleted
    ensures var r := Loop(local, remote, x);
            var read := Consumed(x.link, r.link);
            && (x.link.Exhausted() ==> r == x.(err := Some(Timeout)))
            && (forall i :: 0 <= i < |read| - 1 ==> read[i].Received?)
            && (r.err == Some(ReadFailed) <==> |read| > 0 && read[|read| - 1].Broken?)
            && (r.err == Some(Timeout) ==>
                  r.link.Exhausted() && r.status != PinCompleted && forall i :: 0 <= i < |read| ==> read[i].Received?)
    decreases |x.link.pending|
  {
    var r := Loop(local, remote, x);
    if x.link.Exhausted() {
      assert Consumed(x.link, r.link) == [];
    } else if x.link.Next().Broken? {
      assert Consumed(x.link, r.link) == [x.link.Next()];
    } else {
      var item := x.link.Next();
      var y := After(local, remote, x);
      assert r == Loop(local, remote, y);
      var read := Consumed(x.link, r.link);
      var later := Consumed(y.link, r.link);
      ConsumedAfterNext(x.link, y.link, r.link);
      if y.err.Some? || y.status == PinCompleted {
        assert r == y && later == [];
      } else {
        LoopEnds(local, remote, y);
        forall i | 0 <= i < |read| - 1
          ensures read[i].Received?
        {
          if i > 0 {
            assert read[i] == later[i - 1];
          }
        }
        if r.err == Some(Timeout) {
          forall i | 0 <= i < |read|
            ensures read[i].Received?
          {
            if i > 0 {
              assert read[i] == later[i - 1];
            }
          }
        }
        if |later| > 0 {
          assert read[|read| - 1] == later[|later| - 1];
        }
      }
    }
  }

  /** The error `err` left by handling `m` last, as the switch of the loop
      raises it: a mismatch report, a close or any other message always ends
      the exchange with its own error; a pin or a pin requirement raises one
      only when the reply cannot be written, or, for a requirement, when no
      pin is configured to answer it. */
  predicate MessageError(local: string, remote: string, m: Message, err: Option<Error>)
  {
    && (m.ConnectionPinError? ==> err == Some(PinRemoteMismatched))
    && (m.ConnectionClose? ==> err == Some(PinRemoteClosed))
    && (m.OtherMessage? ==> err == Some(PinInvalidType))
    && (m.ConnectionPinInput? && err.Some? ==> m.pin != local && err == Some(WriteFailed))
    && (m.ConnectionPinState? && err.Some? ==>
          && DemandsPin(m.pinState.state)
          && err == Some(if remote == "" then PinRemoteRequired else WriteFailed))
  }

  /** Handling one message leaves the error `MessageError` describes. */
  lemma StepRaises(local: string, remote: string, link: Link, status: Status, m: Message)
    ensures MessageError(local, remote, m, Step(local, remote, link, status, m).err)
  {
  }

  /** A running loop that ends with an error other than the deadline or a
      failed read was stopped by the last message it read, and ends with that
      message's own error. */
  lemma {:induction false} LoopStopsWith(local: string, remote: string, x: Exchange)
    requires x.err.None? && x.status != PinCompleted
    ensures var r := Loop(local, remote, x);
            var read := Consumed(x.link, r.link);
            && (r.err.Some? && r.err != Some(Timeout) && r.err != Some(ReadFailed) ==>
                  |read| > 0 && read[|read| - 1].Received?)
            && (|read| > 0 && read[|read| - 1].Received? && r.err != Some(Timeout) ==>
                  MessageError(local, remote, read[|read| - 1].msg, r.err))
    decreases |x.link.pending|
  {
    var r := Loop(local, remote, x);
    if x.link.Exhausted() {
      assert Consumed(x.link, r.link) == [];
    } else if x.link.Next().Broken? {
      assert Consumed(x.link, r.link) == [x.link.Next()];
    } else {
      var item := x.link.Next();
      var y := After(local, remote, x);
      assert r == Loop(local, remote, y);
      var read := Consumed(x.link, r.link);
      var later := Consumed(y.link, r.link);
      ConsumedAfterNext(x.link, y.link, r.link);
      if y.err.Some? || y.status == PinCompleted {
        assert r == y && later == [] && read == [item];
        StepRaises(local, remote, x.link.Consume(), x.status, item.msg);
      } else if y.link.Exhausted() {
        assert r == y.(err := Some(Timeout));
      } else {
        LoopStopsWith(local, remote, y);
        assert |later| > 0 by {
          ConsumedAfterNext(y.link, y.link.Consume(), r.link);
        }
        assert read[|read| - 1] == later[|later| - 1];
      }
    }
  }

  /** The announcement written before the first read. */
  function Announce(local: string): Message
  {
    ConnectionPinState(Announcement(local))
  }

  /** The exchange as a whole: announce, then loop. Succeeds only once both
      bits are set; the announcement is the first thing written, and a failed
      announcement ends the exchange before anything is read. */
  function PinState(local: string, remote: string, link: Link): (r: Exchange)
    ensures Advances(link, r.link)
    ensures |r.link.log| > |link.log| && r.link.log[|link.log|] == Announce(local)
    ensures !link.WriteOk() ==> r.err == Some(WriteFailed) && r.link.pending == link.pending && |r.link.log| == |link.log| + 1
    ensures local == "" ==> Has(r.status, PinReceived)
    ensures Includes(r.status, InitialStatus(local))
    ensures r.err.None? ==> r.status == PinCompleted
  {
    var announced := link.Append(Announce(local));
    var r := Loop(local, remote, Exchange(announced, InitialStatus(local), WriteError(link)));
    LoopAdvances(local, remote, Exchange(announced, InitialStatus(local), WriteError(link)));
    LoopGainsBits(local, remote, Exchange(announced, InitialStatus(local), WriteError(link)));
    assert r.link.log[..|announced.log|] == announced.log;
    assert r.link.log[|link.log|] == announced.log[|link.log|];
    r
  }

  // ---------------------------------------------------------------------------
  // Properties of the exchange

  /** A delivery the loop handles without raising an error, when writes succeed. */
  predicate Cooperative(remote: string, item: Incoming)
  {
    && item.Received?
    && (|| item.msg.ConnectionPinInput?
        || (item.msg.ConnectionPinState? && (remote != "" || !DemandsPin(item.msg.pinState.state))))
  }

  lemma {:induction false} LoopLog(local: string, remote: string, x: Exchange)
    ensures var r := Loop(local, remote, x);
            r.link.log == x.link.log + Replies(local, remote, Consumed(x.link, r.link))
    decreases |x.link.pending|, 1
  {
    var r := Loop(local, remote, x);
    if x.err.Some? || x.status == PinCompleted || x.link.Exhausted() {
      assert Consumed(x.link, r.link) == [];
    } else if x.link.Next().Broken? {
      var item := x.link.Next();
      assert r.link == x.link.Consume();
      assert Consumed(x.link, r.link) == [item];
      assert Replies(local, remote, [item]) == Reply(local, remote, item) + Replies(local, remote, []);
    } else {
      LoopLogAfter(local, remote, x);
    }
  }

  /** The case of `LoopLog` where the next delivery is a message: its reply
      comes first, then those of the loop that follows. */
  lemma {:induction false} LoopLogAfter(local: string, remote: string, x: Exchange)
    requires x.err.None? && x.status != PinCompleted && !x.link.Exhausted() && x.link.Next().Received?
    ensures var r := Loop(local, remote, x);
            r.link.log == x.link.log + Replies(local, remote, Consumed(x.link, r.link))
    decreases |x.link.pending|, 0
  {
    var r := Loop(local, remote, x);
    var item := x.link.Next();
    var y := After(local, remote, x);
    assert r == Loop(local, remote, y);
    LoopLog(local, remote, y);
    var later := Consumed(y.link, r.link);
    ConsumedAfterNext(x.link, y.link, r.link);
    var a, b, c := x.link.log, Reply(local, remote, item), Replies(local, remote, later);
    assert Replies(local, remote, [item] + later) == b + c;
    assert r.link.log == a + b + c;
    assert a + b + c == a + (b + c);
  }

  /** Everything written after the announcement answers, in order, one of the
      deliveries the exchange read. */
  lemma PinStateLog(local: string, remote: string, link: Link)
    ensures var r := PinState(local, remote, link);
            r.link.log == link.log + [Announce(local)] + Replies(local, remote, Consumed(link, r.link))
  {
    var announced := link.Append(Announce(local));
    LoopLog(local, remote, Exchange(announced, InitialStatus(local), WriteError(link)));
  }

  /** Once the announcement is written, an exchange that fails other than at
      the deadline or on a failed read fails with the error of the last
      message it read. */
  lemma PinStateStopsWith(local: string, remote: string, link: Link)
    requires link.WriteOk()
    ensures var r := PinState(local, remote, link);
            var read := Consumed(link, r.link);
            && (r.err.Some? && r.err != Some(Timeout) && r.err != Some(ReadFailed) ==>
                  |read| > 0 && read[|read| - 1].Received?)
            && (|read| > 0 && read[|read| - 1].Received? && r.err != Some(Timeout) ==>
                  MessageError(local, remote, read[|read| - 1].msg, r.err))
  {
    var announced := link.Append(Announce(local));
    LoopStopsWith(local, remote, Exchange(announced, InitialStatus(local), WriteError(link)));
  }

  /** The bit `bit` is set by handling message `m`. */
  predicate Sets(bit: Bit, m: Message)
  {
    if bit == PinReceived then m.ConnectionPinInput? else m.ConnectionPinState?
  }

  /** Some delivery sets `bit`. */
  ghost predicate ReadsSetting(bit: Bit, items: seq<Incoming>)
  {
    exists i :: 0 <= i < |items| && items[i].Received? && Sets(bit, items[i].msg)
  }

  lemma {:induction false} LoopSetsOnlyByReading(local: string, remote: string, x: Exchange, bit: Bit)
    requires x.err.None? && !Has(x.status, bit)
    ensures var r := Loop(local, remote, x);
            r.err.None? ==> ReadsSetting(bit, Consumed(x.link, r.link))
    decreases |x.link.pending|
  {
    var r := Loop(local, remote, x);
    if !x.link.Exhausted() && x.link.Next().Received? && r.err.None? {
      var item := x.link.Next();
      var y := After(local, remote, x);
      assert r == Loop(local, remote, y);
      var read := Consumed(x.link, r.link);
      var later := Consumed(y.link, r.link);
      assert read == [item] + later;
      StepSets(local, remote, x.link.Consume(), x.status, item.msg, bit);
      if Has(y.status, bit) {
        assert read[0] == item;
      } else {
        assert y.err.None?;
        LoopSetsOnlyByReading(local, remote, y, bit);
        var i :| 0 <= i < |later| && later[i].Received? && Sets(bit, later[i].msg);
        assert read[i + 1] == later[i];
      }
    }
  }

  lemma {:induction false} LoopReadsOnlyCooperative(local: string, remote: string, x: Exchange)
    requires x.err.None?
    ensures var r := Loop(local, remote, x);
            var read := Consumed(x.link, r.link);
            r.err.None? ==> forall i :: 0 <= i < |read| ==> Cooperative(remote, read[i])
    decreases |x.link.pending|
  {
    var r := Loop(local, remote, x);
    if x.status != PinCompleted && !x.link.Exhausted() && x.link.Next().Received? && r.err.None? {
      var item := x.link.Next();
      var y := After(local, remote, x);
      assert r == Loop(local, remote, y);
      assert y.err.None?;
      StepCooperative(local, remote, x.link.Consume(), x.status, item.msg);
      LoopReadsOnlyCooperative(local, remote, y);
      var read := Consumed(x.link, r.link);
      var later := Consumed(y.link, r.link);
      ConsumedAfterNext(x.link, y.link, r.link);
      forall i | 0 <= i < |read|
        ensures Cooperative(remote, read[i])
      {
        if i == 0 {
          assert read[0] == item;
        } else {
          assert read[i] == later[i - 1];
        }
      }
    }
  }

  /** The exchange succeeds only if the peer sent its pin requirement, sent a
      pin unless none was required locally, and sent nothing that raised an
      error along the way. */
  lemma PinStateSucceedsOnlyWhenBothDone(local: string, remote: string, link: Link)
    ensures var r := PinState(local, remote, link);
            var read := Consumed(link, r.link);
            r.err.None? ==>
              && (local == "" || ReadsSetting(PinReceived, read))
              && ReadsSetting(PinSent, read)
              && forall i :: 0 <= i < |read| ==> Cooperative(remote, read[i])
  {
    var announced := link.Append(Announce(local));
    var x := Exchange(announced, InitialStatus(local), WriteError(link));
    if x.err.None? {
      LoopReadsOnlyCooperative(local, remote, x);
      if local != "" {
        LoopSetsOnlyByReading(local, remote, x, PinReceived);
      }
      LoopSetsOnlyByReading(local, remote, x, PinSent);
    }
  }

  lemma {:induction false} LoopSucceedsWithCooperativePeer(local: string, remote: string, x: Exchange, k: nat)
    requires x.err.None? && x.link.failing == {}
    requires k <= |x.link.pending|
    requires forall i :: 0 <= i < k ==> Cooperative(remote, x.link.pending[i])
    requires Has(x.status, PinReceived) || ReadsSetting(PinReceived, x.link.pending[..k])
    requires Has(x.status, PinSent) || ReadsSetting(PinSent, x.link.pending[..k])
    ensures Loop(local, remote, x).err.None?
    decreases k
  {
    if Has(x.status, PinReceived) && Has(x.status, PinSent) {
      assert x.status == PinCompleted;
    } else {
      assert k > 0;
      var item := x.link.Next();
      assert item == x.link.pending[0];
      var y := Step(local, remote, x.link.Consume(), x.status, item.msg);
      assert y.link.pending == x.link.pending[1..];
      assert y.link.pending[..k - 1] == x.link.pending[1..k];
      if !Has(y.status, PinReceived) {
        var i :| 0 <= i < k && x.link.pending[..k][i].Received? && Sets(PinReceived, x.link.pending[..k][i].msg);
        assert i != 0;
        assert y.link.pending[..k - 1][i - 1] == x.link.pending[i];
      }
      if !Has(y.status, PinSent) {
        var i :| 0 <= i < k && x.link.pending[..k][i].Received? && Sets(PinSent, x.link.pending[..k][i].msg);
        assert i != 0;
        assert y.link.pending[..k - 1][i - 1] == x.link.pending[i];
      }
      LoopSucceedsWithCooperativePeer(local, remote, y, k - 1);
    }
  }

  /** Conversely, when no write fails and the peer's first deliveries are all
      handled without error and include its pin requirement and, if one is
      needed, its pin, the exchange succeeds. */
  lemma PinStateSucceedsWithCooperativePeer(local: string, remote: string, link: Link, k: nat)
    requires link.failing == {}
    requires k <= |link.pending|
    requires forall i :: 0 <= i < k ==> Cooperative(remote, link.pending[i])
    requires local == "" || ReadsSetting(PinReceived, link.pending[..k])
    requires ReadsSetting(PinSent, link.pending[..k])
    ensures PinState(local, remote, link).err.None?
  {
    var announced := link.Append(Announce(local));
    LoopSucceedsWithCooperativePeer(local, remote, Exchange(announced, InitialStatus(local), WriteError(link)), k);
  }

  /** A wrong pin is answered with one pin error but does not end the exchange. */
  lemma MismatchedPinIsReportedNotFatal(remote: string, p: PinStateRecord)
    requires !DemandsPin(p.state)
    ensures var link := Conn([Received(ConnectionPinInput("0000")), Received(ConnectionPinState(p))], {}, []);
            var r := PinState("1234", remote, link);
            r.err.None? && r.link.log == [Announce("1234"), ConnectionPinError(1)]
  {
    var state := Received(ConnectionPinState(p));
    var link := Conn([Received(ConnectionPinInput("0000")), state], {}, []);
    var x0 := Exchange(Conn([Received(ConnectionPinInput("0000")), state], {}, [Announce("1234")]), Status(false, false), None);
    var x1 := Exchange(Conn([state], {}, [Announce("1234"), ConnectionPinError(1)]), Status(true, false), None);
    var x2 := Exchange(Conn([], {}, [Announce("1234"), ConnectionPinError(1)]), PinCompleted, None);
    assert "0000" != "1234" by { assert "0000"[0] != "1234"[0]; }
    assert After("1234", remote, x0) == x1;
    assert Loop("1234", remote, x0) == Loop("1234", remote, x1);
    assert After("1234", remote, x1) == x2;
    assert Loop("1234", remote, x1) == Loop("1234", remote, x2);
    assert Loop("1234", remote, x2) == x2;
    assert InitialStatus("1234") == Status(false, false);
    assert link.Append(Announce("1234")) == x0.link;
    assert WriteError(link) == None;
    assert PinState("1234", remote, link) == Loop("1234", remote, x0);
  }

  /** The right pin is not answered. */
  lemma MatchingPinIsNotAnswered(remote: string, p: PinStateRecord)
    requires !DemandsPin(p.state)
    ensures var link := Conn([Received(ConnectionPinInput("1234")), Received(ConnectionPinState(p))], {}, []);
            var r := PinState("1234", remote, link);
            r.err.None? && r.link.log == [Announce("1234")]
  {
    var state := Received(ConnectionPinState(p));
    var link := Conn([Received(ConnectionPinInput("1234")), state], {}, []);
    var y0 := Exchange(Conn([Received(ConnectionPinInput("1234")), state], {}, [Announce("1234")]), Status(false, false), None);
    var y1 := Exchange(Conn([state], {}, [Announce("1234")]), Status(true, false), None);
    var y2 := Exchange(Conn([], {}, [Announce("1234")]), PinCompleted, None);
    assert After("1234", remote, y0) == y1;
    assert Loop("1234", remote, y0) == Loop("1234", remote, y1);
    assert After("1234", remote, y1) == y2;
    assert Loop("1234", remote, y1) == Loop("1234", remote, y2);
    assert Loop("1234", remote, y2) == y2;
    assert InitialStatus("1234") == Status(false, false);
    assert link.Append(Announce("1234")) == y0.link;
    assert WriteError(link) == None;
    assert PinState("1234", remote, link) == Loop("1234", remote, y0);
  }

  /** A peer that demands a pin when none is configured is refused, and no
      empty pin is ever sent. */
  lemma RemotePinRequiredButMissing(local: string)
    ensures var link := Conn([Received(ConnectionPinState(PinStateRecord(PinRequired, PermissionOk)))], {}, []);
            var r := PinState(local, "", link);
            r.err == Some(PinRemoteRequired) && r.link.log == [Announce(local)]
  {
    var link := Conn([Received(ConnectionPinState(PinStateRecord(PinRequired, PermissionOk)))], {}, []);
    var x := Exchange(link.Append(Announce(local)), InitialStatus(local), None);
    assert WriteError(link) == None;
    var y := After(local, "", x);
    assert y == Exchange(Conn([], {}, [Announce(local)]), With(x.status, PinSent), Some(PinRemoteRequired));
    assert Loop(local, "", x) == y;
    assert PinState(local, "", link) == Loop(local, "", x);
  }
}

=== FILE: server.dfy ===
/** The SHIP server: connection-mode initialisation (section 13.4.3 of the
    SHIP specification), protocol-format negotiation (section 13.4.4.2), the
    server-only PIN loop, the chain of handshake steps, and the message loop
    that follows it.

    Steps whose bodies are not part of this model (hello, the peer's
    confirmation of the selected protocol, the access-method exchanges, the
    ordered close in both directions) are collaborators with a fixed outcome;
    running one appends a `Ran` event to the log. The message decoder and the
    application handler are functions supplied with the server. */
module ShipServer {
  import opened Base
  import opened Channel
  import opened Messages

  const CmiTypeInit: byte := 0
  const CmiTypeControl: byte := 1

  /** The connection-mode initialisation message, both expected and echoed. */
  const InitMessage: seq<byte> := [CmiTypeInit, 0x00]

  datatype HandshakeErrorCode = UnexpectedMessage

  /** The JSON body of a frame the server writes. */
  datatype Body =
    | HandshakeErrorBody(code: HandshakeErrorCode)
    | HandshakeBody(records: seq<HandshakeRecord>)
    | PinStateBody(states: seq<PinStateRecord>)
    | PinErrorBody(codes: seq<int>)

  datatype Frame = Binary(bytes: seq<byte>) | Json(typ: byte, body: Body)

  /** Collaborators whose bodies are not modelled. */
  datatype Collaborator = Hello | HandshakeReceiveSelect | AccessMethodsRequest | AccessMethods | AcceptClose | Close

  /** What the log records: a write attempt, a collaborator run, or a message
      given to the application handler. */
  datatype Event = Wrote(frame: Frame) | Ran(step: Collaborator) | Handled(msg: Message)

  /** A JSON frame as read: its type byte and its unmarshalled body. */
  datatype JsonFrame = JsonFrame(typ: byte, envelope: Envelope)

  /** What one read yields: a binary frame, a JSON frame, or a failure of the connection. */
  datatype Incoming = Raw(bytes: seq<byte>) | Text(frame: JsonFrame) | Broken

  type Link = Conn<Incoming, Event>

  /** The outcome each collaborator reports when it runs. `Serve` discards
      the outcome of `close`, as the code does, so `close` is carried only
      to complete the record. */
  datatype Outcomes = Outcomes(
    hello: Outcome, receiveSelect: Outcome, accessMethodsRequest: Outcome,
    accessMethods: Outcome, acceptClose: Outcome, close: Outcome)

  datatype Server = Server(
    pin: string,
    handler: Option<Message -> Outcome>,
    decode: Envelope -> Result<Message>,
    outcomes: Outcomes)

  /** How a step ends: it returns an outcome, or it never returns. */
  datatype Ending = Returned(outcome: Outcome) | Hangs

  datatype Progress = Progress(link: Link, ending: Ending)

  const Passed := Returned(Pass)

  // ---------------------------------------------------------------------------
  // Reads and writes

  datatype Read<+T> = Read(link: Link, result: Result<T>)

  /** The link after one read: the deadline leaves it as it is. */
  function AfterRead(link: Link): (r: Link)
    ensures Advances(link, r)
  {
    if link.Exhausted() then AdvancesReflexive(link); link else link.Consume()
  }

  function ReadBinary(link: Link): (r: Read<seq<byte>>)
    ensures r.link == AfterRead(link) && Advances(link, r.link)
    ensures r.result.Ok? <==> !link.Exhausted() && link.Next().Raw?
    ensures r.result.Ok? ==> r.result.value == link.Next().bytes
  {
    if link.Exhausted() then Read(link, Err(Timeout))
    else match link.Next()
      case Raw(bytes) => Read(link.Consume(), Ok(bytes))
      case Text(_) => Read(link.Consume(), Err(UnexpectedFrame))
      case Broken => Read(link.Consume(), Err(ReadFailed))
  }

  function ReadJson(link: Link): (r: Read<JsonFrame>)
    ensures r.link == AfterRead(link) && Advances(link, r.link)
    ensures r.result.Ok? <==> !link.Exhausted() && link.Next().Text?
    ensures r.result.Ok? ==> r.result.value == link.Next().frame
  {
    if link.Exhausted() then Read(link, Err(Timeout))
    else match link.Next()
      case Text(frame) => Read(link.Consume(), Ok(frame))
      case Raw(_) => Read(link.Consume(), Err(UnexpectedFrame))
      case Broken => Read(link.Consume(), Err(ReadFailed))
  }

  function WriteFrame(link: Link, f: Frame): (r: Progress)
    ensures r.link == link.Append(Wrote(f)) && Advances(link, r.link)
    ensures r.ending == Passed <==> link.WriteOk()
    ensures r.ending.Returned? && (r.ending.outcome.Fail? ==> r.ending.outcome.error == WriteFailed)
  {
    Progress(link.Append(Wrote(f)), Returned(if link.WriteOk() then Pass else Fail(WriteFailed)))
  }

  function Run(link: Link, step: Collaborator, outcome: Outcome): (r: Progress)
    ensures Advances(link, r.link) && Appended(link, r.link) == [Ran(step)]
    ensures r.ending == Returned(outcome)
  {
    Progress(link.Append(Ran(step)), Returned(outcome))
  }

  // ---------------------------------------------------------------------------
  // init

  /** The next delivery is exactly the initialisation message. */
  predicate LeadsWithInit(link: Link)
  {
    !link.Exhausted() && link.Next() == Raw(InitMessage)
  }

  /** Connection-mode initialisation: the client's init message is echoed back
      unchanged; anything else is refused and nothing is written. */
  function Init(link: Link): (r: Progress)
    ensures Advances(link, r.link)
    ensures forall e :: e in Appended(link, r.link) ==> HandshakeEvent(e)
    ensures r.ending.Returned?
    ensures r.link.pending == AfterRead(link).pending
    ensures LeadsWithInit(link) ==> r.link.log == link.log + [Wrote(Binary(InitMessage))]
    ensures LeadsWithInit(link) ==> (r.ending == Passed <==> link.WriteOk())
    ensures LeadsWithInit(link) && !link.WriteOk() ==> r.ending == Returned(Fail(WriteFailed))
    ensures !LeadsWithInit(link) ==> r.link.log == link.log && r.ending.outcome.Fail?
    ensures !link.Exhausted() && link.Next().Raw? && link.Next().bytes != InitMessage ==>
              r.ending == Returned(Fail(InitInvalidResponse(link.Next().bytes)))
    ensures link.Exhausted() ==> r.ending == Returned(Fail(Timeout))
    ensures !link.Exhausted() && link.Next().Broken? ==> r.ending == Returned(Fail(ReadFailed))
    ensures !link.Exhausted() && link.Next().Text? ==> r.ending == Returned(Fail(UnexpectedFrame))
  {
    var read := ReadBinary(link);
    match read.result
    case Err(e) => Progress(read.link, Returned(Fail(e)))
    case Ok(msg) =>
      if msg != InitMessage then Progress(read.link, Returned(Fail(InitInvalidResponse(msg))))
      else WriteFrame(read.link, Binary(InitMessage))
  }

  // ---------------------------------------------------------------------------
  // protocolHandshake

  /** The next delivery is a control message holding exactly one handshake record. */
  predicate OffersRecord(link: Link)
  {
    && !link.Exhausted()
    && link.Next().Text?
    && link.Next().frame.typ == CmiTypeControl
    && |link.Next().frame.envelope.protocolHandshake| == 1
  }

  function Offered(link: Link): HandshakeRecord
    requires OffersRecord(link)
  {
    link.Next().frame.envelope.protocolHandshake[0]
  }

  /** The client announces the maximum version, with JSON as its only format. */
  predicate Acceptable(hs: HandshakeRecord)
  {
    hs.handshakeType == AnnounceMax && hs.formats == [FormatJson]
  }

  /** The record sent back to select the protocol: the request, with only the
      handshake type changed. */
  function Selection(hs: HandshakeRecord): (r: HandshakeRecord)
    ensures r.handshakeType == Select
    ensures r.version == hs.version && r.formats == hs.formats
  {
    hs.(handshakeType := Select)
  }

  const Rejection := Wrote(Json(CmiTypeControl, HandshakeErrorBody(UnexpectedMessage)))

  /** Protocol-format negotiation. A malformed request is refused without a
      reply; an unacceptable record is answered with a handshake error and
      refused whatever that write's outcome; an acceptable one is echoed as
      the selection, and the client's confirmation is awaited only if that
      write succeeded. */
  function ProtocolHandshake(s: Server, link: Link): (r: Progress)
    ensures Advances(link, r.link)
    ensures forall e :: e in Appended(link, r.link) ==> HandshakeEvent(e)
    ensures r.ending.Returned?
    ensures r.link.pending == AfterRead(link).pending
  {
    var read := ReadJson(link);
    assert read.link.log == link.log && Appended(link, read.link) == [];
    match read.result
    case Err(e) => Progress(read.link, Returned(Fail(e)))
    case Ok(req) =>
      if req.typ != CmiTypeControl then Progress(read.link, Returned(Fail(HandshakeInvalidType(req.typ))))
      else if |req.envelope.protocolHandshake| != 1 then Progress(read.link, Returned(Fail(HandshakeInvalidLength)))
      else
        var hs := req.envelope.protocolHandshake[0];
        assert OffersRecord(link) && Offered(link) == hs;
        if !Acceptable(hs) then
          var r := Progress(read.link.Append(Rejection), Returned(Fail(HandshakeInvalidResponse)));
          assert Appended(link, r.link) == [Rejection];
          r
        else
          var r := SelectProtocol(s, read.link, req);
          AdvancesTransitive(link, read.link, r.link);
          r
  }

  /** A request that does not carry exactly one record in a control message is
      refused without a reply: with the read error, "invalid type" for
      another message type, "invalid length" otherwise. */
  lemma ProtocolHandshakeRefuses(s: Server, link: Link)
    requires !OffersRecord(link)
    ensures var r := ProtocolHandshake(s, link);
            && r.link.log == link.log && r.ending.outcome.Fail?
            && (link.Exhausted() ==> r.ending == Returned(Fail(Timeout)))
            && (!link.Exhausted() && link.Next().Broken? ==> r.ending == Returned(Fail(ReadFailed)))
            && (!link.Exhausted() && link.Next().Raw? ==> r.ending == Returned(Fail(UnexpectedFrame)))
            && (!link.Exhausted() && link.Next().Text? && link.Next().frame.typ != CmiTypeControl ==>
                  r.ending == Returned(Fail(HandshakeInvalidType(link.Next().frame.typ))))
            && (!link.Exhausted() && link.Next().Text? && link.Next().frame.typ == CmiTypeControl ==>
                  r.ending == Returned(Fail(HandshakeInvalidLength)))
  {
  }

  /** A single record that does not announce the maximum version with JSON
      only is answered with one handshake error and refused, whatever that
      write's outcome. */
  lemma ProtocolHandshakeRejects(s: Server, link: Link)
    requires OffersRecord(link) && !Acceptable(Offered(link))
    ensures var r := ProtocolHandshake(s, link);
            r.link.log == link.log + [Rejection] && r.ending == Returned(Fail(HandshakeInvalidResponse))
  {
  }

  /** An acceptable record is echoed as the selection; the confirmation step
      runs only if that write succeeded, and the step passes exactly when
      both the write and the confirmation do. */
  lemma ProtocolHandshakeAccepts(s: Server, link: Link)
    requires OffersRecord(link) && Acceptable(Offered(link))
    ensures var r := ProtocolHandshake(s, link);
            && r.link.log == link.log + [Wrote(Json(CmiTypeControl, HandshakeBody([Selection(Offered(link))])))]
                                      + (if link.WriteOk() then [Ran(HandshakeReceiveSelect)] else [])
            && (r.ending == Passed <==> link.WriteOk() && s.outcomes.receiveSelect == Pass)
            && (!link.WriteOk() ==> r.ending == Returned(Fail(WriteFailed)))
  {
    var r := ProtocolHandshake(s, link);
    var read := ReadJson(link);
    assert r == SelectProtocol(s, read.link, read.result.value);
    AdvancesTransitive(link, read.link, r.link);
  }

  /** Echoes the one acceptable record of `req` as the selection, then awaits
      the client's confirmation if that write succeeded. */
  function SelectProtocol(s: Server, link: Link, req: JsonFrame): (r: Progress)
    requires |req.envelope.protocolHandshake| == 1
    ensures Advances(link, r.link) && r.link.pending == link.pending
    ensures Appended(link, r.link) ==
              [Wrote(Json(CmiTypeControl, HandshakeBody([Selection(req.envelope.protocolHandshake[0])])))]
              + (if link.WriteOk() then [Ran(HandshakeReceiveSelect)] else [])
    ensures forall e :: e in Appended(link, r.link) ==> HandshakeEvent(e)
    ensures r.ending.Returned? && (r.ending == Passed <==> link.WriteOk() && s.outcomes.receiveSelect == Pass)
    ensures !link.WriteOk() ==> r.ending == Returned(Fail(WriteFailed))
  {
    var hs := req.envelope.protocolHandshake[0];
    var selected := req.envelope.protocolHandshake[0 := Selection(hs)];
    assert selected == [Selection(hs)];
    var sent := WriteFrame(link, Json(CmiTypeControl, HandshakeBody(selected)));
    assert Appended(link, sent.link) == [Wrote(Json(CmiTypeControl, HandshakeBody(selected)))];
    if sent.ending != Passed then sent
    else
      var r := Run(sent.link, HandshakeReceiveSelect, s.outcomes.receiveSelect);
      AdvancesTransitive(link, sent.link, r.link);
      r
  }


  // ---------------------------------------------------------------------------
  // pinState

  /** The announcement the server writes first. */
  function PinAnnouncement(pin: string): Event
  {
    Wrote(Json(CmiTypeControl, PinStateBody([Announcement(pin)])))
  }

  const PinMismatch := Wrote(Json(CmiTypeControl, PinErrorBody([1])))

  /** A control message holding exactly one pin input record. */
  predicate IsPinInput(item: Incoming)
  {
    item.Text? && item.frame.typ == CmiTypeControl && |item.frame.envelope.connectionPinInput| == 1
  }

  function PinOf(item: Incoming): string
    requires IsPinInput(item)
  {
    item.frame.envelope.connectionPinInput[0]
  }

  /** A pin input record carrying `pin`. */
  predicate Presents(item: Incoming, pin: string)
  {
    IsPinInput(item) && PinOf(item) == pin
  }

  /** The loop of pinState as written: the error of each iteration is a new
      variable that the loop condition never sees, so failed reads, malformed
      messages and failed writes are all skipped and the loop goes on until the
      configured pin is read. Once the deadline has passed every read fails,
      so a loop still waiting then never ends. */
  function PinLoop(link: Link, pin: string, last: string): (r: Progress)
    ensures Advances(link, r.link)
    ensures r.ending == Hangs || r.ending == Passed
    ensures r.ending == Hangs ==> r.link.Exhausted() && last != pin
    decreases |link.pending|
  {
    if last == pin then AdvancesReflexive(link); Progress(link, Passed)
    else if link.Exhausted() then AdvancesReflexive(link); Progress(link, Hangs)
    else
      var item := link.Next();
      var rest := link.Consume();
      if IsPinInput(item) && PinOf(item) != pin then
        var next := rest.Append(PinMismatch);
        var r := PinLoop(next, pin, PinOf(item));
        AdvancesTransitive(link, rest, next);
        AdvancesTransitive(link, next, r.link);
        r
      else
        var r := PinLoop(rest, pin, if IsPinInput(item) then PinOf(item) else last);
        AdvancesTransitive(link, rest, r.link);
        r
  }

  /** The as-written loop writes nothing but pin error replies. */
  lemma {:induction false} PinLoopWritesOnlyMismatches(link: Link, pin: string, last: string)
    ensures forall e :: e in Appended(link, PinLoop(link, pin, last).link) ==> e == PinMismatch
    decreases |link.pending|
  {
    var r := PinLoop(link, pin, last);
    if last != pin && !link.Exhausted() {
      var item := link.Next();
      var rest := link.Consume();
      var mismatch := IsPinInput(item) && PinOf(item) != pin;
      var next := if mismatch then rest.Append(PinMismatch) else rest;
      var last' := if IsPinInput(item) then PinOf(item) else last;
      assert r == PinLoop(next, pin, last');
      assert Appended(link, next) == if mismatch then [PinMismatch] else [];
      PinLoopWritesOnlyMismatches(next, pin, last');
      AdvancesTransitive(link, next, r.link);
    }
  }


  /** The server's pin step as written: the announcement requires a pin exactly
      when one is configured, and the step's result is only the announcement
      write's outcome. */
  function PinState(s: Server, link: Link): (r: Progress)
    ensures Advances(link, r.link)
    ensures forall e :: e in Appended(link, r.link) ==> HandshakeEvent(e)
    ensures |r.link.log| > |link.log| && r.link.log[|link.log|] == PinAnnouncement(s.pin)
    ensures r.ending == Returned(Fail(WriteFailed)) <==> !link.WriteOk()
    ensures r.ending.Returned? ==> r.ending == Passed || r.ending == Returned(Fail(WriteFailed))
    ensures !link.WriteOk() ==> r.link.pending == link.pending
    ensures s.pin == "" && link.WriteOk() ==> r.ending == Passed && r.link.pending == link.pending
    ensures forall e :: e in Appended(link, r.link)[1..] ==> e == PinMismatch
  {
    var announced := link.Append(PinAnnouncement(s.pin));
    if !link.WriteOk() then
      var r := Progress(announced, Returned(Fail(WriteFailed)));
      assert Appended(link, r.link) == [PinAnnouncement(s.pin)];
      r
    else
      var r := PinLoop(announced, s.pin, "");
      PinLoopWritesOnlyMismatches(announced, s.pin, "");
      AdvancesTransitive(link, announced, r.link);
      assert Appended(link, r.link) == [PinAnnouncement(s.pin)] + Appended(announced, r.link);
      assert Appended(link, r.link)[1..] == Appended(announced, r.link);
      r
  }

  /** The number of pin inputs among `items` that carry a pin other than `pin`. */
  function Mismatches(items: seq<Incoming>, pin: string): nat
  {
    if items == [] then 0
    else (if IsPinInput(items[0]) && PinOf(items[0]) != pin then 1 else 0) + Mismatches(items[1..], pin)
  }

  lemma {:induction false} MismatchesAppend(a: seq<Incoming>, b: seq<Incoming>, pin: string)
    ensures Mismatches(a + b, pin) == Mismatches(a, pin) + Mismatches(b, pin)
  {
    if a != [] {
      assert (a + b)[1..] == a[1..] + b;
      MismatchesAppend(a[1..], b, pin);
    } else {
      assert a + b == b;
    }
  }

  /** The link the as-written loop continues with after reading the next
      item, and the pin it then holds. */
  function PinLoopNext(link: Link, pin: string): (r: Link)
    requires !link.Exhausted()
    ensures Advances(link, r) && Consumed(link, r) == [link.Next()] && r.pending == link.pending[1..]
    ensures Appended(link, r) == (if IsPinInput(link.Next()) && PinOf(link.Next()) != pin then [PinMismatch] else [])
  {
    var item := link.Next();
    var rest := link.Consume();
    if IsPinInput(item) && PinOf(item) != pin then
      var next := rest.Append(PinMismatch);
      AdvancesTransitive(link, rest, next);
      next
    else rest
  }

  function PinLoopLast(item: Incoming, last: string): string
  {
    if IsPinInput(item) then PinOf(item) else last
  }

  lemma PinLoopUnfold(link: Link, pin: string, last: string)
    requires last != pin && !link.Exhausted()
    ensures var next := PinLoopNext(link, pin);
            var r := PinLoop(link, pin, last);
            && r == PinLoop(next, pin, PinLoopLast(link.Next(), last))
            && Consumed(link, r.link) == [link.Next()] + Consumed(next, r.link)
            && Appended(link, r.link) == Appended(link, next) + Appended(next, r.link)
            && link.pending == [link.Next()] + next.pending
  {
    var next := PinLoopNext(link, pin);
    var r := PinLoop(link, pin, last);
    AdvancesTransitive(link, next, r.link);
  }

  /** The as-written loop hangs exactly when no pending item is a pin input
      carrying the configured pin, and it has then read everything. */
  lemma {:induction false} PinLoopHangsWithoutMatch(link: Link, pin: string, last: string)
    requires last != pin
    ensures var r := PinLoop(link, pin, last);
            && (r.ending == Hangs <==> forall i :: 0 <= i < |link.pending| ==> !Presents(link.pending[i], pin))
            && (r.ending == Hangs ==> Consumed(link, r.link) == link.pending)
    decreases |link.pending|
  {
    if !link.Exhausted() {
      var item := link.Next();
      var next := PinLoopNext(link, pin);
      var last' := PinLoopLast(item, last);
      PinLoopUnfold(link, pin, last);
      if last' != pin {
        PinLoopHangsWithoutMatch(next, pin, last');
        assert !Presents(item, pin);
        forall i | 0 < i < |link.pending|
          ensures link.pending[i] == next.pending[i - 1]
        {
        }
      }
    }
  }

  /** When the as-written loop passes, the last item it read carries the
      configured pin and no earlier one does. */
  lemma {:induction false} PinLoopPassesAtFirstMatch(link: Link, pin: string, last: string)
    requires last != pin
    ensures var r := PinLoop(link, pin, last);
            var read := Consumed(link, r.link);
            && (r.ending == Passed ==> |read| > 0 && Presents(read[|read| - 1], pin))
            && (forall i :: 0 <= i < |read| - 1 ==> !Presents(read[i], pin))
    decreases |link.pending|
  {
    if !link.Exhausted() {
      var item := link.Next();
      var next := PinLoopNext(link, pin);
      var last' := PinLoopLast(item, last);
      PinLoopUnfold(link, pin, last);
      var r := PinLoop(link, pin, last);
      if last' == pin {
        assert r.link == next;
      } else {
        PinLoopPassesAtFirstMatch(next, pin, last');
        assert !Presents(item, pin);
      }
    }
  }

  /** The as-written loop answers every pin input it reads that carries
      another pin with one error reply, and writes nothing else. */
  lemma {:induction false} PinLoopRepliesPerMismatch(link: Link, pin: string, last: string)
    ensures var r := PinLoop(link, pin, last);
            |Appended(link, r.link)| == Mismatches(Consumed(link, r.link), pin)
    decreases |link.pending|
  {
    var r := PinLoop(link, pin, last);
    if last != pin && !link.Exhausted() {
      var item := link.Next();
      var next := PinLoopNext(link, pin);
      PinLoopUnfold(link, pin, last);
      PinLoopRepliesPerMismatch(next, pin, PinLoopLast(item, last));
      MismatchesAppend([item], Consumed(next, r.link), pin);
      assert Mismatches([item], pin) == |Appended(link, next)|;
    }
  }


  /** The pin loop as evidently intended: an error inside the loop ends it and
      is returned, so the loop always returns. */
  function PinLoopIntended(link: Link, pin: string, last: string): (r: Progress)
    ensures Advances(link, r.link)
    ensures r.ending.Returned?
    decreases |link.pending|
  {
    if last == pin then AdvancesReflexive(link); Progress(link, Passed)
    else
      var read := ReadJson(link);
      match read.result
      case Err(e) => Progress(read.link, Returned(Fail(e)))
      case Ok(resp) =>
        if resp.typ != CmiTypeControl then Progress(read.link, Returned(Fail(PinInvalidType)))
        else if |resp.envelope.connectionPinInput| != 1 then Progress(read.link, Returned(Fail(PinInvalidLength)))
        else
          var p := resp.envelope.connectionPinInput[0];
          if p != pin then
            var sent := WriteFrame(read.link, PinMismatch.frame);
            AdvancesTransitive(link, read.link, sent.link);
            if sent.ending != Passed then sent
            else
              var r := PinLoopIntended(sent.link, pin, p);
              AdvancesTransitive(link, sent.link, r.link);
              r
          else
            var r := PinLoopIntended(read.link, pin, p);
            AdvancesTransitive(link, read.link, r.link);
            r
  }

  /** The error the intended loop raises on reading `item` before looking at
      the pin: none for a control message holding exactly one pin input. */
  function PinInputError(item: Incoming): (r: Option<Error>)
    ensures r.None? <==> IsPinInput(item)
  {
    match item
    case Broken => Some(ReadFailed)
    case Raw(_) => Some(UnexpectedFrame)
    case Text(frame) =>
      if frame.typ != CmiTypeControl then Some(PinInvalidType)
      else if |frame.envelope.connectionPinInput| != 1 then Some(PinInvalidLength)
      else None
  }

  /** Every delivery read but the last is a pin input carrying another pin,
      and the loop passed exactly when the last one carries `pin`. */
  predicate WrongPinsUntil(read: seq<Incoming>, pin: string, ending: Ending)
  {
    && (forall i :: 0 <= i < |read| - 1 ==> IsPinInput(read[i]) && PinOf(read[i]) != pin)
    && (ending == Passed <==> read != [] && Presents(read[|read| - 1], pin))
  }

  /** A wrong pin read before the rest keeps the description, unless the rest
      is empty and the loop passed. */
  lemma WrongPinsUntilPrepend(item: Incoming, later: seq<Incoming>, pin: string, ending: Ending)
    requires IsPinInput(item) && PinOf(item) != pin
    requires WrongPinsUntil(later, pin, ending)
    ensures WrongPinsUntil([item] + later, pin, ending)
  {
    var read := [item] + later;
    forall i | 0 <= i < |read| - 1
      ensures IsPinInput(read[i]) && PinOf(read[i]) != pin
    {
      if i > 0 {
        assert read[i] == later[i - 1];
      }
    }
    if later != [] {
      assert read[|read| - 1] == later[|later| - 1];
    }
  }

  /** The intended loop reads pin inputs carrying another pin until the last
      delivery it reads, and passes exactly when that one carries the
      configured pin. */
  lemma {:induction false} PinLoopIntendedEnds(link: Link, pin: string, last: string)
    requires last != pin
    ensures var r := PinLoopIntended(link, pin, last);
            WrongPinsUntil(Consumed(link, r.link), pin, r.ending)
    decreases |link.pending|
  {
    var r := PinLoopIntended(link, pin, last);
    if link.Exhausted() {
      assert Consumed(link, r.link) == [];
    } else if !IsPinInput(link.Next()) || PinOf(link.Next()) == pin || !link.WriteOk() {
      PinLoopIntendedStops(link, pin, last);
    } else {
      var item := link.Next();
      var sent := PinLoopIntendedNext(link, pin);
      PinLoopIntendedUnfold(link, pin, last);
      PinLoopIntendedEnds(sent, pin, PinOf(item));
      WrongPinsUntilPrepend(item, Consumed(sent, r.link), pin, r.ending);
    }
  }

  /** How the intended loop may end, given what it read, whether there was
      anything to read, its ending and the link it left: with nothing to read,
      at the deadline; on a last delivery that is not a pin input, with that
      delivery's error; after a wrong pin, only because the error reply could
      not be written or, with nothing left to read, at the deadline; and at
      the deadline only with nothing left to read. */
  predicate FailsAsIntended(read: seq<Incoming>, exhausted: bool, pin: string, ending: Ending, left: Link)
  {
    && (read == [] ==> exhausted && ending == Returned(Fail(Timeout)))
    && (read != [] && !IsPinInput(read[|read| - 1]) ==>
          ending == Returned(Fail(PinInputError(read[|read| - 1]).value)))
    && (read != [] && IsPinInput(read[|read| - 1]) && PinOf(read[|read| - 1]) != pin ==>
          || (ending == Returned(Fail(WriteFailed)) && |left.log| > 0 && left.log[|left.log| - 1] == PinMismatch)
          || (ending == Returned(Fail(Timeout)) && left.Exhausted()))
    && (ending == Returned(Fail(Timeout)) ==> left.Exhausted())
  }

  /** A wrong pin read before the rest keeps the description. */
  lemma FailsAsIntendedPrepend(item: Incoming, later: seq<Incoming>, exhausted: bool, pin: string, ending: Ending, left: Link)
    requires IsPinInput(item) && PinOf(item) != pin
    requires FailsAsIntended(later, exhausted, pin, ending, left)
    ensures FailsAsIntended([item] + later, false, pin, ending, left)
  {
    var read := [item] + later;
    if later != [] {
      assert read[|read| - 1] == later[|later| - 1];
    }
  }

  /** The intended loop fails only as `FailsAsIntended` describes. */
  lemma {:induction false} PinLoopIntendedFailures(link: Link, pin: string, last: string)
    requires last != pin
    ensures var r := PinLoopIntended(link, pin, last);
            FailsAsIntended(Consumed(link, r.link), link.Exhausted(), pin, r.ending, r.link)
    decreases |link.pending|
  {
    var r := PinLoopIntended(link, pin, last);
    if link.Exhausted() {
      assert Consumed(link, r.link) == [];
    } else if !IsPinInput(link.Next()) || PinOf(link.Next()) == pin || !link.WriteOk() {
      PinLoopIntendedStops(link, pin, last);
    } else {
      var item := link.Next();
      var sent := PinLoopIntendedNext(link, pin);
      PinLoopIntendedUnfold(link, pin, last);
      PinLoopIntendedFailures(sent, pin, PinOf(item));
      FailsAsIntendedPrepend(item, Consumed(sent, r.link), sent.Exhausted(), pin, r.ending, r.link);
    }
  }

  /** The link the intended loop continues with after a wrong pin whose error
      reply was written. */
  function PinLoopIntendedNext(link: Link, pin: string): (r: Link)
    requires !link.Exhausted()
    ensures Advances(link, r) && Consumed(link, r) == [link.Next()] && r.pending == link.pending[1..]
    ensures r.log == link.log + [PinMismatch]
  {
    var rest := link.Consume();
    var sent := rest.Append(PinMismatch);
    AdvancesTransitive(link, rest, sent);
    sent
  }

  lemma PinLoopIntendedUnfold(link: Link, pin: string, last: string)
    requires last != pin && !link.Exhausted() && link.WriteOk()
    requires IsPinInput(link.Next()) && PinOf(link.Next()) != pin
    ensures var sent := PinLoopIntendedNext(link, pin);
            var r := PinLoopIntended(link, pin, last);
            && r == PinLoopIntended(sent, pin, PinOf(link.Next()))
            && Consumed(link, r.link) == [link.Next()] + Consumed(sent, r.link)
            && Appended(link, r.link) == [PinMismatch] + Appended(sent, r.link)
  {
    var sent := PinLoopIntendedNext(link, pin);
    var r := PinLoopIntended(link, pin, last);
    assert r == PinLoopIntended(sent, pin, PinOf(link.Next()));
    AdvancesTransitive(link, sent, r.link);
  }

  /** The intended loop stops after the next delivery when it is not a pin
      input, carries the configured pin, or its error reply cannot be
      written. */
  lemma PinLoopIntendedStops(link: Link, pin: string, last: string)
    requires last != pin && !link.Exhausted()
    requires !IsPinInput(link.Next()) || PinOf(link.Next()) == pin || !link.WriteOk()
    ensures var r := PinLoopIntended(link, pin, last);
            && Consumed(link, r.link) == [link.Next()]
            && (!IsPinInput(link.Next()) ==> r.ending == Returned(Fail(PinInputError(link.Next()).value)))
            && (Presents(link.Next(), pin) ==> r.ending == Passed)
            && (IsPinInput(link.Next()) && PinOf(link.Next()) != pin ==>
                  r.ending == Returned(Fail(WriteFailed)) && Appended(link, r.link) == [PinMismatch])
            && (!IsPinInput(link.Next()) || PinOf(link.Next()) == pin ==> Appended(link, r.link) == [])
  {
    var r := PinLoopIntended(link, pin, last);
    if Presents(link.Next(), pin) {
      assert r.link == link.Consume();
    }
  }

  /** The intended loop writes nothing but pin error replies. */
  lemma {:induction false} PinLoopIntendedWritesOnlyMismatches(link: Link, pin: string, last: string)
    ensures var r := PinLoopIntended(link, pin, last);
            forall e :: e in Appended(link, r.link) ==> e == PinMismatch
    decreases |link.pending|
  {
    var r := PinLoopIntended(link, pin, last);
    if last == pin || link.Exhausted() {
      assert r.link.log == link.log;
    } else if !IsPinInput(link.Next()) || PinOf(link.Next()) == pin || !link.WriteOk() {
      PinLoopIntendedStops(link, pin, last);
    } else {
      var sent := PinLoopIntendedNext(link, pin);
      PinLoopIntendedUnfold(link, pin, last);
      PinLoopIntendedWritesOnlyMismatches(sent, pin, PinOf(link.Next()));
      var later := Appended(sent, r.link);
      forall e | e in [PinMismatch] + later
        ensures e == PinMismatch
      {
        assert e == PinMismatch || e in later;
      }
    }
  }


  /** The server's pin step with loop errors returned: it always returns. */
  function PinStateIntended(s: Server, link: Link): (r: Progress)
    ensures Advances(link, r.link)
    ensures |r.link.log| > |link.log| && r.link.log[|link.log|] == PinAnnouncement(s.pin)
    ensures r.ending.Returned?
    ensures !link.WriteOk() ==> r.ending == Returned(Fail(WriteFailed)) && r.link.pending == link.pending
  {
    var announced := link.Append(PinAnnouncement(s.pin));
    var r := if !link.WriteOk() then Progress(announced, Returned(Fail(WriteFailed))) else PinLoopIntended(announced, s.pin, "");
    assert r.link.log[..|announced.log|] == announced.log;
    assert r.link.log[|link.log|] == announced.log[|link.log|];
    r
  }

  /** With a pin configured and the announcement written, the intended step
      reads pin inputs carrying another pin until the last delivery it reads,
      and passes exactly when that one carries the configured pin. */
  lemma PinStateIntendedPassesOnPin(s: Server, link: Link)
    requires s.pin != ""
    ensures var r := PinStateIntended(s, link);
            && (link.WriteOk() ==> WrongPinsUntil(Consumed(link, r.link), s.pin, r.ending))
            && (r.ending == Passed ==> link.WriteOk())
  {
    var announced := link.Append(PinAnnouncement(s.pin));
    var r := PinStateIntended(s, link);
    if link.WriteOk() {
      assert r == PinLoopIntended(announced, s.pin, "");
      PinLoopIntendedEnds(announced, s.pin, "");
      assert Consumed(link, r.link) == Consumed(announced, r.link);
    }
  }


  /** A read failure once the pin is awaited: the step as written never
      returns, the intended step returns the read error. */
  lemma PinStateSpinsOnDeadConnection(s: Server, link: Link)
    requires s.pin != "" && link.WriteOk() && link.pending == [Broken]
    ensures PinState(s, link).ending == Hangs
    ensures PinStateIntended(s, link).ending == Returned(Fail(ReadFailed))
  {
    var announced := link.Append(PinAnnouncement(s.pin));
    assert announced.pending == [Broken];
    var after := announced.Consume();
    assert after.Exhausted();
    assert PinState(s, link) == PinLoop(announced, s.pin, "");
    assert PinLoopNext(announced, s.pin) == after;
    PinLoopUnfold(announced, s.pin, "");
    assert PinLoop(after, s.pin, "") == Progress(after, Hangs);
    assert PinStateIntended(s, link) == PinLoopIntended(announced, s.pin, "");
    assert ReadJson(announced) == Read(after, Err(ReadFailed));
  }

  /** On a connection where every write succeeds, every read is a pin input
      and the configured pin eventually arrives, the loop as written and the
      intended loop behave alike. */
  lemma {:induction false} PinLoopAgreesOnCleanInput(link: Link, pin: string, last: string)
    requires link.failing == {}
    requires forall i :: 0 <= i < |link.pending| ==> IsPinInput(link.pending[i])
    requires last == pin || exists i :: 0 <= i < |link.pending| && Presents(link.pending[i], pin)
    ensures PinLoop(link, pin, last) == PinLoopIntended(link, pin, last)
    decreases |link.pending|
  {
    if last != pin {
      var item := link.Next();
      var next := PinLoopNext(link, pin);
      PinLoopUnfold(link, pin, last);
      assert IsPinInput(item);
      if PinOf(item) != pin {
        assert !Presents(link.pending[0], pin);
        assert exists i :: 0 <= i < |next.pending| && Presents(next.pending[i], pin) by {
          var i :| 0 <= i < |link.pending| && Presents(link.pending[i], pin);
          assert next.pending[i - 1] == link.pending[i];
        }
      }
      assert forall i :: 0 <= i < |next.pending| ==> next.pending[i] == link.pending[i + 1];
      PinLoopAgreesOnCleanInput(next, pin, PinOf(item));
    }
  }

  /** The finding does not touch a well-behaved peer: on such a connection
      the pin step as written and as intended agree. */
  lemma PinStateAgreesOnCleanInput(s: Server, link: Link)
    requires link.failing == {}
    requires forall i :: 0 <= i < |link.pending| ==> IsPinInput(link.pending[i])
    requires s.pin == "" || exists i :: 0 <= i < |link.pending| && Presents(link.pending[i], s.pin)
    ensures PinState(s, link) == PinStateIntended(s, link)
  {
    var announced := link.Append(PinAnnouncement(s.pin));
    assert announced.pending == link.pending;
    PinLoopAgreesOnCleanInput(announced, s.pin, "");
  }

  // ---------------------------------------------------------------------------
  // Serve

  datatype Phase = InitPhase | HelloPhase | ProtocolHandshakePhase | PinStatePhase | AccessMethodsRequestPhase | AccessMethodsPhase

  const HandshakeOrder: seq<Phase> :=
    [InitPhase, HelloPhase, ProtocolHandshakePhase, PinStatePhase, AccessMethodsRequestPhase, AccessMethodsPhase]

  /** Events a handshake step may log: writes, and collaborators other than
      the two close paths. */
  predicate HandshakeEvent(e: Event)
  {
    e.Wrote? || (e.Ran? && e.step != AcceptClose && e.step != Close)
  }

  function RunPhase(s: Server, p: Phase, link: Link): (r: Progress)
    ensures Advances(link, r.link)
    ensures forall e :: e in Appended(link, r.link) ==> HandshakeEvent(e)
  {
    match p
    case InitPhase => Init(link)
    case HelloPhase => Run(link, Hello, s.outcomes.hello)
    case ProtocolHandshakePhase => ProtocolHandshake(s, link)
    case PinStatePhase => PinState(s, link)
    case AccessMethodsRequestPhase => Run(link, AccessMethodsRequest, s.outcomes.accessMethodsRequest)
    case AccessMethodsPhase => Run(link, AccessMethods, s.outcomes.accessMethods)
  }

  datatype Chain = Chain(link: Link, started: seq<Phase>, ending: Ending)

  /** Runs the phases in order; the first that does not pass ends the chain. */
  function RunHandshake(s: Server, phases: seq<Phase>, link: Link): (r: Chain)
    ensures Advances(link, r.link)
    ensures r.started <= phases
    ensures r.ending == Passed ==> r.started == phases
    ensures phases != [] ==> r.started != []
    ensures forall e :: e in Appended(link, r.link) ==> HandshakeEvent(e)
    decreases |phases|
  {
    if phases == [] then Chain(link, [], Passed)
    else
      var first := RunPhase(s, phases[0], link);
      if first.ending != Passed then Chain(first.link, [phases[0]], first.ending)
      else
        var rest := RunHandshake(s, phases[1..], first.link);
        AdvancesTransitive(link, first.link, rest.link);
        HandshakeEventsJoin(Appended(link, first.link), Appended(first.link, rest.link));
        PrefixCons(phases, rest.started);
        Chain(rest.link, [phases[0]] + rest.started, rest.ending)
  }

  lemma HandshakeEventsJoin(a: seq<Event>, b: seq<Event>)
    requires forall e :: e in a ==> HandshakeEvent(e)
    requires forall e :: e in b ==> HandshakeEvent(e)
    ensures forall e :: e in a + b ==> HandshakeEvent(e)
  {
  }

  lemma PrefixCons<T>(xs: seq<T>, p: seq<T>)
    requires xs != [] && p <= xs[1..]
    ensures [xs[0]] + p <= xs
    ensures p == xs[1..] ==> [xs[0]] + p == xs
  {
  }

  /** The link step `i` of `steps` starts from: `link` for the first, and
      the one its predecessor left otherwise. */
  function StartOf(link: Link, steps: seq<Progress>, i: nat): Link
    requires i < |steps|
  {
    if i == 0 then link else steps[i - 1].link
  }

  /** How the server runs each phase. */
  function Runner(s: Server): (Phase, Link) -> Progress
  {
    (p: Phase, l: Link) => RunPhase(s, p, l)
  }

  /** `steps` are what `run` makes of the first `|steps|` phases, each run on
      the link the one before it left. */
  predicate RunsInOrder(run: (Phase, Link) -> Progress, phases: seq<Phase>, link: Link, steps: seq<Progress>)
  {
    && |steps| <= |phases|
    && forall i :: 0 <= i < |steps| ==> steps[i] == run(phases[i], StartOf(link, steps, i))
  }

  /** Each step only reads forward and appends. */
  ghost predicate StepsAdvance(link: Link, steps: seq<Progress>)
  {
    forall i {:trigger StartOf(link, steps, i)} :: 0 <= i < |steps| ==> Advances(StartOf(link, steps, i), steps[i].link)
  }

  /** The events the steps log, one step's after the other's. */
  function StepEvents(link: Link, steps: seq<Progress>): seq<Event>
    requires StepsAdvance(link, steps)
    decreases |steps|
  {
    if steps == [] then []
    else
      StepsAdvanceTail(link, steps);
      Appended(link, steps[0].link) + StepEvents(steps[0].link, steps[1..])
  }

  /** The chain runs the phases one after the other, each on the link the
      previous one left, and every phase it started but the last passed. */
  lemma {:induction false} RunHandshakeSteps(s: Server, phases: seq<Phase>, link: Link) returns (steps: seq<Progress>)
    ensures RunsInOrder(Runner(s), phases, link, steps)
    ensures RunHandshake(s, phases, link).started == phases[..|steps|]
    ensures forall i :: 0 <= i < |steps| - 1 ==> steps[i].ending == Passed
    ensures steps == [] ==> phases == []
    decreases |phases|
  {
    if phases == [] {
      steps := [];
    } else {
      var first := RunPhase(s, phases[0], link);
      if first.ending != Passed {
        steps := [first];
      } else {
        var rest := RunHandshakeSteps(s, phases[1..], first.link);
        steps := [first] + rest;
        RunsInOrderPrepend(Runner(s), phases, link, first, rest);
        PrefixAfterFirst(phases, |steps|);
      }
    }
  }

  /** Phases run in order, all but the last passing, end where the chain
      ends: on the last one's link, with its ending, so a chain that stops
      early stops at a phase that did not pass. */
  lemma {:induction false} RunHandshakeEnds(s: Server, phases: seq<Phase>, link: Link, steps: seq<Progress>)
    requires RunsInOrder(Runner(s), phases, link, steps)
    requires RunHandshake(s, phases, link).started == phases[..|steps|]
    requires forall i :: 0 <= i < |steps| - 1 ==> steps[i].ending == Passed
    requires steps == [] ==> phases == []
    ensures steps == [] ==> RunHandshake(s, phases, link) == Chain(link, [], Passed)
    ensures steps != [] ==> RunHandshake(s, phases, link).link == steps[|steps| - 1].link
    ensures steps != [] ==> RunHandshake(s, phases, link).ending == steps[|steps| - 1].ending
    decreases |phases|
  {
    if steps != [] {
      var first := RunPhase(s, phases[0], link);
      assert steps[0] == first by {
        assert StartOf(link, steps, 0) == link;
      }
      if first.ending != Passed {
        RunHandshakeStops(s, phases, link);
      } else {
        RunHandshakeCons(s, phases, link);
        var chain := RunHandshake(s, phases[1..], first.link);
        if |steps| == 1 {
          assert chain.started == [];
          assert phases[1..] == [];
        } else {
          var rest := steps[1..];
          RunsInOrderTail(Runner(s), phases, link, steps);
          PrefixAfterFirst(phases, |steps|);
          RunHandshakeEnds(s, phases[1..], first.link, rest);
          LastOfTail(steps);
        }
      }
    }
  }

  /** A step that does not pass ends the chain with its own outcome. */
  lemma RunHandshakeStops(s: Server, phases: seq<Phase>, link: Link)
    requires phases != [] && RunPhase(s, phases[0], link).ending != Passed
    ensures var first := RunPhase(s, phases[0], link);
            RunHandshake(s, phases, link) == Chain(first.link, [phases[0]], first.ending)
  {
  }

  /** Running the first phase and then the rest in order runs all of them in
      order. */
  lemma RunsInOrderPrepend(run: (Phase, Link) -> Progress, phases: seq<Phase>, link: Link, first: Progress, rest: seq<Progress>)
    requires phases != [] && first == run(phases[0], link)
    requires RunsInOrder(run, phases[1..], first.link, rest)
    ensures RunsInOrder(run, phases, link, [first] + rest)
  {
    var steps := [first] + rest;
    forall i | 0 < i < |steps|
      ensures steps[i] == run(phases[i], StartOf(link, steps, i))
    {
      assert steps[i] == rest[i - 1] && phases[i] == phases[1..][i - 1];
      assert StartOf(link, steps, i) == StartOf(first.link, rest, i - 1);
    }
  }

  /** Dropping the first of several steps run in order leaves the rest run
      in order from where the first left off. */
  lemma RunsInOrderTail(run: (Phase, Link) -> Progress, phases: seq<Phase>, link: Link, steps: seq<Progress>)
    requires |steps| > 1 && RunsInOrder(run, phases, link, steps)
    ensures RunsInOrder(run, phases[1..], steps[0].link, steps[1..])
  {
    var rest := steps[1..];
    forall i | 0 <= i < |rest|
      ensures rest[i] == run(phases[1..][i], StartOf(steps[0].link, rest, i))
    {
      assert rest[i] == steps[i + 1] && phases[1..][i] == phases[i + 1];
      assert StartOf(steps[0].link, rest, i) == StartOf(link, steps, i + 1);
    }
  }

  lemma PrefixAfterFirst<T>(xs: seq<T>, n: nat)
    requires 0 < n <= |xs|
    ensures xs[..n] == [xs[0]] + xs[1..][..n - 1]
  {
  }

  lemma LastOfTail<T>(xs: seq<T>)
    requires |xs| >= 2
    ensures xs[1..][|xs| - 2] == xs[|xs| - 1]
  {
  }

  /** Phases run in order only read forward and append. */
  lemma RunsInOrderAdvances(s: Server, phases: seq<Phase>, link: Link, steps: seq<Progress>)
    requires RunsInOrder(Runner(s), phases, link, steps)
    ensures StepsAdvance(link, steps)
  {
    forall i | 0 <= i < |steps|
      ensures Advances(StartOf(link, steps, i), steps[i].link)
    {
      var r := RunPhase(s, phases[i], StartOf(link, steps, i));
    }
  }

  /** The steps after the first advance from the link the first one left. */
  lemma StepsAdvanceTail(link: Link, steps: seq<Progress>)
    requires StepsAdvance(link, steps) && steps != []
    ensures Advances(link, steps[0].link) && StepsAdvance(steps[0].link, steps[1..])
  {
    assert Advances(StartOf(link, steps, 0), steps[0].link);
    forall i | 0 <= i < |steps| - 1
      ensures Advances(StartOf(steps[0].link, steps[1..], i), steps[1..][i].link)
    {
      assert Advances(StartOf(link, steps, i + 1), steps[i + 1].link);
    }
  }

  /** Steps that each read forward and append log, between the first link and
      the last step's, exactly their own events in order. */
  lemma {:induction false} StepEventsSpan(link: Link, steps: seq<Progress>)
    requires StepsAdvance(link, steps) && steps != []
    ensures Advances(link, steps[|steps| - 1].link)
    ensures Appended(link, steps[|steps| - 1].link) == StepEvents(link, steps)
    decreases |steps|
  {
    StepsAdvanceTail(link, steps);
    var first := steps[0].link;
    var rest := steps[1..];
    var end := steps[|steps| - 1].link;
    assert StepEvents(link, steps) == Appended(link, first) + StepEvents(first, rest);
    if rest == [] {
      assert end == first;
      AdvancesReflexive(first);
    } else {
      StepEventsSpan(first, rest);
      LastOfTail(steps);
      assert rest[|rest| - 1].link == end;
      AdvancesTransitive(link, first, end);
    }
  }


  /** The chain logs the events of the phases it started, in order, and
      nothing else. */
  lemma RunHandshakeEvents(s: Server, phases: seq<Phase>, link: Link) returns (steps: seq<Progress>)
    ensures RunsInOrder(Runner(s), phases, link, steps) && StepsAdvance(link, steps)
    ensures RunHandshake(s, phases, link).started == phases[..|steps|]
    ensures Appended(link, RunHandshake(s, phases, link).link) == StepEvents(link, steps)
  {
    steps := RunHandshakeSteps(s, phases, link);
    RunHandshakeEnds(s, phases, link, steps);
    RunsInOrderAdvances(s, phases, link, steps);
    if steps == [] {
      AdvancesReflexive(link);
    } else {
      StepEventsSpan(link, steps);
    }
  }

  datatype LoopExit = Accepted(outcome: Outcome) | Broke(error: Error)

  datatype LoopRun = LoopRun(link: Link, exit: LoopExit)

  /** The message loop after a successful handshake: every decoded message
      other than ConnectionClose goes to the handler; ConnectionClose runs the
      close-accept path and ends the loop with its outcome; a read or decode
      error, a missing handler or a handler error breaks the loop. */
  function MessageLoop(s: Server, link: Link): (r: LoopRun)
    ensures Advances(link, r.link)
    decreases |link.pending|
  {
    if link.Exhausted() then LoopRun(link, Broke(Timeout))
    else
      var rest := link.Consume();
      match link.Next()
      case Broken => LoopRun(rest, Broke(ReadFailed))
      case Raw(_) => LoopRun(rest, Broke(UnexpectedFrame))
      case Text(frame) =>
        match s.decode(frame.envelope)
        case Err(e) => LoopRun(rest, Broke(e))
        case Ok(m) =>
          if m.ConnectionClose? then LoopRun(rest.Append(Ran(AcceptClose)), Accepted(s.outcomes.acceptClose))
          else match s.handler
            case None => LoopRun(rest, Broke(NoHandler))
            case Some(h) =>
              var handled := rest.Append(Handled(m));
              match h(m)
              case Fail(e) => LoopRun(handled, Broke(e))
              case Pass =>
                var r := MessageLoop(s, handled);
                AdvancesTransitive(link, handled, r.link);
                r
  }
  /** What the loop may log, given its exit: only handled non-close messages
      and the close-accept run; the close-accept run exactly when it exits
      through that path, as its last event and with that step's outcome; and
      no handled message without a handler. */
  predicate LoopLogged(s: Server, events: seq<Event>, exit: LoopExit)
  {
    && (forall e :: e in events ==> (e.Handled? && !e.msg.ConnectionClose?) || e == Ran(AcceptClose))
    && (exit.Accepted? <==> Ran(AcceptClose) in events)
    && (exit.Accepted? ==> exit.outcome == s.outcomes.acceptClose && events[|events| - 1] == Ran(AcceptClose))
    && (s.handler.None? ==> forall e :: e in events ==> !e.Handled?)
  }

  /** A handled non-close message logged before the rest keeps the
      description, when there is a handler. */
  lemma LoopLoggedPrepend(s: Server, m: Message, later: seq<Event>, exit: LoopExit)
    requires !m.ConnectionClose? && s.handler.Some?
    requires LoopLogged(s, later, exit)
    ensures LoopLogged(s, [Handled(m)] + later, exit)
  {
    var events := [Handled(m)] + later;
    forall e | e in events
      ensures (e.Handled? && !e.msg.ConnectionClose?) || e == Ran(AcceptClose)
    {
      assert e == Handled(m) || e in later;
    }
    assert Ran(AcceptClose) in events <==> Ran(AcceptClose) in later;
    if exit.Accepted? {
      assert events[|events| - 1] == later[|later| - 1];
    }
  }

  /** The loop logs only what `LoopLogged` allows. */
  lemma {:induction false} MessageLoopEvents(s: Server, link: Link)
    ensures var r := MessageLoop(s, link);
            LoopLogged(s, Appended(link, r.link), r.exit)
    decreases |link.pending|
  {
    var r := MessageLoop(s, link);
    if link.Exhausted() {
      AdvancesReflexive(link);
    } else if Flows(s, link.Next()) {
      var next := MessageLoopNext(s, link);
      MessageLoopUnfold(s, link);
      MessageLoopEvents(s, next);
      LoopLoggedPrepend(s, Decoded(s, link.Next()), Appended(next, r.link), r.exit);
    } else {
      MessageLoopStops(s, link);
    }
  }

  /** The message an item decodes to, when it is a JSON frame that decodes. */
  predicate Decodes(s: Server, item: Incoming)
  {
    item.Text? && s.decode(item.frame.envelope).Ok?
  }

  function Decoded(s: Server, item: Incoming): Message
    requires Decodes(s, item)
  {
    s.decode(item.frame.envelope).value
  }

  /** An item the loop hands to the handler and then carries on after. */
  predicate Flows(s: Server, item: Incoming)
  {
    && Decodes(s, item)
    && !Decoded(s, item).ConnectionClose?
    && s.handler.Some?
    && s.handler.value(Decoded(s, item)) == Pass
  }

  /** The link the loop continues with after handing an item over. */
  function MessageLoopNext(s: Server, link: Link): (r: Link)
    requires !link.Exhausted() && Flows(s, link.Next())
    ensures Advances(link, r) && r.pending == link.pending[1..]
    ensures Consumed(link, r) == [link.Next()] && Appended(link, r) == [Handled(Decoded(s, link.Next()))]
  {
    var rest := link.Consume();
    var next := rest.Append(Handled(Decoded(s, link.Next())));
    AdvancesTransitive(link, rest, next);
    next
  }

  lemma MessageLoopSteps(s: Server, link: Link)
    requires !link.Exhausted() && Flows(s, link.Next())
    ensures MessageLoop(s, link) == MessageLoop(s, MessageLoopNext(s, link))
  {
  }

  lemma MessageLoopUnfold(s: Server, link: Link)
    requires !link.Exhausted() && Flows(s, link.Next())
    ensures var next := MessageLoopNext(s, link);
            var r := MessageLoop(s, link);
            && r == MessageLoop(s, next)
            && Consumed(link, r.link) == [link.Next()] + Consumed(next, r.link)
            && Appended(link, r.link) == [Handled(Decoded(s, link.Next()))] + Appended(next, r.link)
            && link.pending == [link.Next()] + next.pending
  {
    MessageLoopSteps(s, link);
    var next := MessageLoopNext(s, link);
    AdvancesTransitive(link, next, MessageLoop(s, next).link);
  }

  /** An item that does not flow is the last the loop reads. The loop ends
      through the close-accept path, with that step's outcome, exactly when the
      item is a ConnectionClose, and logs only the close-accept run or the
      message handed to the handler. */
  lemma MessageLoopStops(s: Server, link: Link)
    requires !link.Exhausted() && !Flows(s, link.Next())
    ensures var r := MessageLoop(s, link);
            && Consumed(link, r.link) == [link.Next()]
            && (r.exit.Accepted? <==> Decodes(s, link.Next()) && Decoded(s, link.Next()) == ConnectionClose)
            && (r.exit.Accepted? ==> r.exit.outcome == s.outcomes.acceptClose)
            && Appended(link, r.link) ==
                 (if !Decodes(s, link.Next()) || (s.handler.None? && !Decoded(s, link.Next()).ConnectionClose?) then []
                  else if Decoded(s, link.Next()).ConnectionClose? then [Ran(AcceptClose)]
                  else [Handled(Decoded(s, link.Next()))])
  {
    var rest := link.Consume();
    var r := MessageLoop(s, link);
    assert Consumed(link, rest) == [link.Next()] && Appended(link, rest) == [];
    match link.Next()
    case Broken =>
      assert r == LoopRun(rest, Broke(ReadFailed));
    case Raw(_) =>
      assert r == LoopRun(rest, Broke(UnexpectedFrame));
    case Text(frame) =>
      match s.decode(frame.envelope)
      case Err(e) =>
        assert r == LoopRun(rest, Broke(e));
      case Ok(m) =>
        if m.ConnectionClose? {
          assert r == LoopRun(rest.Append(Ran(AcceptClose)), Accepted(s.outcomes.acceptClose));
          AdvancesTransitive(link, rest, r.link);
        } else if s.handler.None? {
          assert r == LoopRun(rest, Broke(NoHandler));
        } else {
          assert r == LoopRun(rest.Append(Handled(m)), Broke(s.handler.value(m).error));
          AdvancesTransitive(link, rest, r.link);
        }
  }
  /** When the item that does not flow is not a ConnectionClose, the loop
      breaks with the read failure, the unexpected binary frame, the decode
      error, the missing handler or the handler's own error. */
  lemma MessageLoopBreaks(s: Server, link: Link)
    requires !link.Exhausted() && !Flows(s, link.Next())
    ensures var r := MessageLoop(s, link);
            && (link.Next().Broken? ==> r.exit == Broke(ReadFailed))
            && (link.Next().Raw? ==> r.exit == Broke(UnexpectedFrame))
            && (link.Next().Text? && s.decode(link.Next().frame.envelope).Err? ==>
                  r.exit == Broke(s.decode(link.Next().frame.envelope).error))
            && (Decodes(s, link.Next()) && !Decoded(s, link.Next()).ConnectionClose? ==>
                  && (s.handler.None? ==> r.exit == Broke(NoHandler))
                  && (s.handler.Some? ==> r.exit == Broke(s.handler.value(Decoded(s, link.Next())).error)))
  {
  }


  /** Every item of `read` but the last flows, and the events begin with the
      messages it carries, in order. */
  predicate HandedOver(s: Server, read: seq<Incoming>, events: seq<Event>)
  {
    && (forall i :: 0 <= i < |read| - 1 ==> Flows(s, read[i]))
    && |read| - 1 <= |events|
    && (forall i :: 0 <= i < |read| - 1 ==> events[i] == Handled(Decoded(s, read[i])))
  }

  /** Every item before the last one the loop reads was handed to the
      handler, in order and with nothing in between. */
  lemma {:induction false} MessageLoopDeliversInOrder(s: Server, link: Link)
    ensures var r := MessageLoop(s, link);
            HandedOver(s, Consumed(link, r.link), Appended(link, r.link))
    decreases |link.pending|
  {
    var r := MessageLoop(s, link);
    if link.Exhausted() {
      AdvancesReflexive(link);
    } else if Flows(s, link.Next()) {
      var next := MessageLoopNext(s, link);
      MessageLoopUnfold(s, link);
      MessageLoopDeliversInOrder(s, next);
      var read := Consumed(link, r.link);
      var events := Appended(link, r.link);
      var tail := Consumed(next, r.link);
      var later := Appended(next, r.link);
      forall i | 0 <= i < |read| - 1
        ensures Flows(s, read[i])
      {
        if i > 0 {
          assert read[i] == tail[i - 1];
        }
      }
      assert |read| - 1 <= |events|;
      forall i | 0 <= i < |read| - 1
        ensures events[i] == Handled(Decoded(s, read[i]))
      {
        if i > 0 {
          assert read[i] == tail[i - 1];
          assert events[i] == later[i - 1];
        } else {
          assert read[0] == link.Next();
        }
      }
      assert HandedOver(s, read, events);
    } else {
      MessageLoopStops(s, link);
    }
  }

  /** When everything the loop reads flows to the handler, it has read the
      whole connection and stops at the deadline. */
  lemma {:induction false} MessageLoopRunsToDeadline(s: Server, link: Link)
    ensures var r := MessageLoop(s, link);
            var read := Consumed(link, r.link);
            (forall i :: 0 <= i < |read| ==> Flows(s, read[i])) ==> read == link.pending && r.exit == Broke(Timeout)
    decreases |link.pending|
  {
    var r := MessageLoop(s, link);
    if link.Exhausted() {
      AdvancesReflexive(link);
    } else if Flows(s, link.Next()) {
      var next := MessageLoopNext(s, link);
      MessageLoopUnfold(s, link);
      MessageLoopRunsToDeadline(s, next);
      var read := Consumed(link, r.link);
      var tail := Consumed(next, r.link);
      if forall i :: 0 <= i < |read| ==> Flows(s, read[i]) {
        forall i | 0 <= i < |tail|
          ensures Flows(s, tail[i])
        {
          assert tail[i] == read[i + 1];
        }
      }
    } else {
      MessageLoopStops(s, link);
      assert !Flows(s, Consumed(link, r.link)[0]);
    }
  }

  /** The loop ends through the close-accept path exactly when the last item
      it reads decodes to ConnectionClose. */
  lemma {:induction false} MessageLoopAcceptsOnClose(s: Server, link: Link)
    ensures var r := MessageLoop(s, link);
            var read := Consumed(link, r.link);
            r.exit.Accepted? <==> |read| > 0 && Decodes(s, read[|read| - 1]) && Decoded(s, read[|read| - 1]) == ConnectionClose
    decreases |link.pending|
  {
    var r := MessageLoop(s, link);
    if link.Exhausted() {
      AdvancesReflexive(link);
    } else if Flows(s, link.Next()) {
      var next := MessageLoopNext(s, link);
      MessageLoopUnfold(s, link);
      MessageLoopAcceptsOnClose(s, next);
      var read := Consumed(link, r.link);
      var tail := Consumed(next, r.link);
      if |tail| == 0 {
        assert !Decoded(s, link.Next()).ConnectionClose?;
      } else {
        assert read[|read| - 1] == tail[|tail| - 1];
      }
    } else {
      MessageLoopStops(s, link);
    }
  }

  datatype Session = Session(link: Link, started: seq<Phase>, ending: Ending)

  /** What follows the handshake steps: the message loop if they all passed;
      then, on an error other than through the close-accept path, one ordered
      close whose own outcome is ignored. A hanging step never returns. */
  function Conclude(s: Server, hs: Chain): (r: Session)
    ensures Advances(hs.link, r.link)
    ensures r.started == hs.started
    ensures hs.ending != Passed ==> r.ending == hs.ending
  {
    match hs.ending
    case Hangs => Session(hs.link, hs.started, Hangs)
    case Returned(Fail(e)) => Session(hs.link.Append(Ran(Close)), hs.started, Returned(Fail(e)))
    case Returned(Pass) =>
      var loop := MessageLoop(s, hs.link);
      match loop.exit
      case Accepted(o) => Session(loop.link, hs.started, Returned(o))
      case Broke(e) =>
        var closed := loop.link.Append(Ran(Close));
        AdvancesTransitive(hs.link, loop.link, closed);
        Session(closed, hs.started, Returned(Fail(e)))
  }

  /** Serve: the handshake steps in order, stopping at the first failure,
      then the message loop. */
  function Serve(s: Server, link: Link): (r: Session)
    ensures Advances(link, r.link)
    ensures r.started <= HandshakeOrder
    ensures |r.started| < |HandshakeOrder| ==> r.ending != Passed
  {
    var hs := RunHandshake(s, HandshakeOrder, link);
    var r := Conclude(s, hs);
    AdvancesTransitive(link, hs.link, r.link);
    r
  }

  /** The events after the handshake steps: the ordered close alone when a
      step failed, nothing when one hangs, otherwise the message loop's events
      followed by the close unless the loop ended through the peer's close. */
  lemma ConcludeEvents(s: Server, hs: Chain)
    ensures var r := Conclude(s, hs);
            && (hs.ending != Passed ==>
                  Appended(hs.link, r.link) == (if hs.ending.Hangs? then [] else [Ran(Close)]))
            && (hs.ending == Passed ==>
                  var loop := MessageLoop(s, hs.link);
                  && Advances(hs.link, loop.link)
                  && Appended(hs.link, r.link) == Appended(hs.link, loop.link)
                                                  + (if loop.exit.Accepted? then [] else [Ran(Close)])
                  && r.ending == (if loop.exit.Accepted? then Returned(loop.exit.outcome) else Returned(Fail(loop.exit.error))))
  {
    if hs.ending == Passed {
      var loop := MessageLoop(s, hs.link);
      if loop.exit.Broke? {
        AdvancesTransitive(hs.link, loop.link, loop.link.Append(Ran(Close)));
      }
    }
  }

  /** The events of a session: those of the handshake steps, then those that
      conclude it. */
  lemma ServeSplits(s: Server, link: Link)
    ensures var hs := RunHandshake(s, HandshakeOrder, link);
            && Serve(s, link) == Conclude(s, hs)
            && Advances(link, hs.link)
            && Appended(link, Serve(s, link).link) == Appended(link, hs.link) + Appended(hs.link, Conclude(s, hs).link)
  {
    var hs := RunHandshake(s, HandshakeOrder, link);
    AdvancesTransitive(link, hs.link, Conclude(s, hs).link);
  }

  /** The handshake steps never hand anything to the handler and never close. */
  lemma HandshakeHandlesNothing(s: Server, phases: seq<Phase>, link: Link)
    ensures var hs := RunHandshake(s, phases, link);
            forall e :: e in Appended(link, hs.link) ==> !e.Handled? && e != Ran(Close) && e != Ran(AcceptClose)
  {
    var hs := RunHandshake(s, phases, link);
    assert forall e :: e in Appended(link, hs.link) ==> HandshakeEvent(e);
  }

  /** A step that passes hands the rest of the chain the link it left. */
  lemma RunHandshakeCons(s: Server, phases: seq<Phase>, link: Link)
    requires phases != [] && RunPhase(s, phases[0], link).ending == Passed
    ensures var rest := RunHandshake(s, phases[1..], RunPhase(s, phases[0], link).link);
            RunHandshake(s, phases, link) == Chain(rest.link, [phases[0]] + rest.started, rest.ending)
  {
  }

  /** An init message is echoed and the step passes when the write succeeds. */
  lemma InitEchoes(link: Link)
    requires LeadsWithInit(link) && link.WriteOk()
    ensures Init(link) == Progress(link.Consume().Append(Wrote(Binary(InitMessage))), Passed)
  {
  }

  /** An acceptable announcement is answered with the selection, and the
      step ends with the peer's confirmation. */
  lemma ProtocolHandshakeSelects(s: Server, link: Link)
    requires OffersRecord(link) && Acceptable(Offered(link)) && link.WriteOk()
    ensures ProtocolHandshake(s, link) ==
              Run(link.Consume().Append(Wrote(Json(CmiTypeControl, HandshakeBody([Selection(Offered(link))])))),
                  HandshakeReceiveSelect, s.outcomes.receiveSelect)
  {
  }

  /** With the announcement written, the pin step passes at once when no pin
      is configured, and after reading the configured pin otherwise. */
  lemma PinStateTakesPin(s: Server, link: Link)
    requires link.WriteOk()
    requires s.pin != "" ==> !link.Exhausted() && Presents(link.Next(), s.pin)
    ensures var announced := link.Append(PinAnnouncement(s.pin));
            PinState(s, link) == Progress(if s.pin == "" then announced else announced.Consume(), Passed)
  {
    var announced := link.Append(PinAnnouncement(s.pin));
    if s.pin != "" {
      assert PinState(s, link) == PinLoop(announced, s.pin, "");
      assert PinLoop(announced, s.pin, "") == PinLoop(announced.Consume(), s.pin, s.pin);
    }
  }

  /** The deliveries of a client that completes the handshake: the init
      message, one acceptable protocol announcement, and the configured pin
      when there is one. */
  predicate CompletesHandshake(s: Server, items: seq<Incoming>, hs: HandshakeRecord)
  {
    && |items| == (if s.pin == "" then 2 else 3)
    && items[0] == Raw(InitMessage)
    && items[1].Text? && items[1].frame.typ == CmiTypeControl
    && items[1].frame.envelope.protocolHandshake == [hs] && Acceptable(hs)
    && (s.pin != "" ==> Presents(items[2], s.pin))
  }

  /** The writes and runs of a handshake that passes, in order. */
  function HandshakeLog(s: Server, hs: HandshakeRecord): seq<Event>
  {
    [ Wrote(Binary(InitMessage)), Ran(Hello),
      Wrote(Json(CmiTypeControl, HandshakeBody([Selection(hs)]))), Ran(HandshakeReceiveSelect),
      PinAnnouncement(s.pin), Ran(AccessMethodsRequest), Ran(AccessMethods) ]
  }

  /** The links a passing handshake leaves after each of its six steps,
      starting from `link`. */
  function HandshakeLinks(s: Server, link: Link, hs: HandshakeRecord): (r: seq<Link>)
    requires |link.pending| >= (if s.pin == "" then 2 else 3)
    ensures |r| == 7 && r[0] == link
  {
    var l1 := link.Consume().Append(Wrote(Binary(InitMessage)));
    var l2 := l1.Append(Ran(Hello));
    var l3 := l2.Consume().Append(Wrote(Json(CmiTypeControl, HandshakeBody([Selection(hs)])))).Append(Ran(HandshakeReceiveSelect));
    var announced := l3.Append(PinAnnouncement(s.pin));
    var l4 := if s.pin == "" then announced else announced.Consume();
    var l5 := l4.Append(Ran(AccessMethodsRequest));
    [link, l1, l2, l3, l4, l5, l5.Append(Ran(AccessMethods))]
  }

  lemma AppendTwice<T>(a: seq<T>, b: seq<T>, x: T)
    ensures a + b + [x] == a + (b + [x])
  {
  }

  /** The passing handshake reads the client's deliveries and logs its writes
      and runs in order. */
  lemma HandshakeLinksLog(s: Server, link: Link, items: seq<Incoming>, hs: HandshakeRecord, rest: seq<Incoming>)
    requires CompletesHandshake(s, items, hs) && link.pending == items + rest
    ensures var links := HandshakeLinks(s, link, hs);
            && links[6].pending == rest && links[6].failing == link.failing
            && links[6].log == link.log + HandshakeLog(s, hs)
  {
    var links := HandshakeLinks(s, link, hs);
    var e := HandshakeLog(s, hs);
    assert links[1].log == link.log + e[..1];
    AppendTwice(link.log, e[..1], e[1]);
    assert links[2].log == link.log + e[..2];
    AppendTwice(link.log, e[..2], e[2]);
    AppendTwice(link.log, e[..3], e[3]);
    assert links[3].log == link.log + e[..4];
    AppendTwice(link.log, e[..4], e[4]);
    assert links[4].log == link.log + e[..5];
    AppendTwice(link.log, e[..5], e[5]);
    assert links[5].log == link.log + e[..6];
    AppendTwice(link.log, e[..6], e[6]);
    assert e[..7] == e;
  }

  /** With every write succeeding, every collaborator passing and a client
      that completes the handshake, all six steps run and pass, they log the
      handshake's writes and runs in order, and the message loop then runs on
      the deliveries that follow. */
  lemma ServeCompletesHandshake(s: Server, link: Link, items: seq<Incoming>, hs: HandshakeRecord, rest: seq<Incoming>)
    requires link.failing == {}
    requires s.outcomes.hello == Pass && s.outcomes.receiveSelect == Pass
    requires s.outcomes.accessMethodsRequest == Pass && s.outcomes.accessMethods == Pass
    requires CompletesHandshake(s, items, hs) && link.pending == items + rest
    ensures var chain := RunHandshake(s, HandshakeOrder, link);
            && chain.ending == Passed && chain.started == HandshakeOrder
            && chain.link.pending == rest
            && chain.link.log == link.log + HandshakeLog(s, hs)
            && var loop := MessageLoop(s, chain.link);
               && Serve(s, link).started == HandshakeOrder
               && Serve(s, link).ending == (if loop.exit.Accepted? then Returned(loop.exit.outcome) else Returned(Fail(loop.exit.error)))
               && Serve(s, link).link == (if loop.exit.Accepted? then loop.link else loop.link.Append(Ran(Close)))
  {
    var links := HandshakeLinks(s, link, hs);
    HandshakeLinksLog(s, link, items, hs, rest);
    forall k | 0 <= k < 6
      ensures RunPhase(s, HandshakeOrder[k], links[k]) == Progress(links[k + 1], Passed)
    {
      HandshakeStepPasses(s, link, items, hs, rest, k);
    }
    RunHandshakeThrough(s, HandshakeOrder, links);
    ServeSplits(s, link);
  }

  /** Each step of the handshake passes on the link the previous one left. */
  lemma HandshakeStepPasses(s: Server, link: Link, items: seq<Incoming>, hs: HandshakeRecord, rest: seq<Incoming>, k: nat)
    requires link.failing == {}
    requires s.outcomes.hello == Pass && s.outcomes.receiveSelect == Pass
    requires s.outcomes.accessMethodsRequest == Pass && s.outcomes.accessMethods == Pass
    requires CompletesHandshake(s, items, hs) && link.pending == items + rest
    requires k < 6
    ensures RunPhase(s, HandshakeOrder[k], HandshakeLinks(s, link, hs)[k]) == Progress(HandshakeLinks(s, link, hs)[k + 1], Passed)
  {
    if k == 0 {
      HandshakeInitStep(s, link, items, hs, rest);
    } else if k == 2 {
      HandshakeSelectStep(s, link, items, hs, rest);
    } else if k == 3 {
      HandshakePinStep(s, link, items, hs, rest);
    } else {
      HandshakeRunStep(s, link, items, hs, rest, k);
    }
  }

  lemma HandshakeInitStep(s: Server, link: Link, items: seq<Incoming>, hs: HandshakeRecord, rest: seq<Incoming>)
    requires link.failing == {}
    requires CompletesHandshake(s, items, hs) && link.pending == items + rest
    ensures RunPhase(s, HandshakeOrder[0], HandshakeLinks(s, link, hs)[0]) == Progress(HandshakeLinks(s, link, hs)[1], Passed)
  {
    InitEchoes(link);
  }

  lemma HandshakeRunStep(s: Server, link: Link, items: seq<Incoming>, hs: HandshakeRecord, rest: seq<Incoming>, k: nat)
    requires s.outcomes.hello == Pass
    requires s.outcomes.accessMethodsRequest == Pass && s.outcomes.accessMethods == Pass
    requires CompletesHandshake(s, items, hs) && link.pending == items + rest
    requires k == 1 || k == 4 || k == 5
    ensures RunPhase(s, HandshakeOrder[k], HandshakeLinks(s, link, hs)[k]) == Progress(HandshakeLinks(s, link, hs)[k + 1], Passed)
  {
  }

  lemma HandshakeSelectStep(s: Server, link: Link, items: seq<Incoming>, hs: HandshakeRecord, rest: seq<Incoming>)
    requires link.failing == {} && s.outcomes.receiveSelect == Pass
    requires CompletesHandshake(s, items, hs) && link.pending == items + rest
    ensures RunPhase(s, HandshakeOrder[2], HandshakeLinks(s, link, hs)[2]) == Progress(HandshakeLinks(s, link, hs)[3], Passed)
  {
    var links := HandshakeLinks(s, link, hs);
    assert links[2].pending == link.pending[1..];
    assert OffersRecord(links[2]) && Offered(links[2]) == hs;
    ProtocolHandshakeSelects(s, links[2]);
  }

  lemma HandshakePinStep(s: Server, link: Link, items: seq<Incoming>, hs: HandshakeRecord, rest: seq<Incoming>)
    requires link.failing == {}
    requires CompletesHandshake(s, items, hs) && link.pending == items + rest
    ensures RunPhase(s, HandshakeOrder[3], HandshakeLinks(s, link, hs)[3]) == Progress(HandshakeLinks(s, link, hs)[4], Passed)
  {
    var links := HandshakeLinks(s, link, hs);
    var l3 := links[3];
    var announced := l3.Append(PinAnnouncement(s.pin));
    assert l3.pending == link.pending[2..] && l3.failing == {};
    assert s.pin != "" ==> l3.Next() == items[2];
    PinStateTakesPin(s, l3);
    assert links[4] == (if s.pin == "" then announced else announced.Consume());
    assert RunPhase(s, HandshakeOrder[3], l3) == PinState(s, l3);
  }

  /** Phases that each pass on the link the previous one left make a chain
      that passes, on the link the last one left. */
  lemma {:induction false} RunHandshakeThrough(s: Server, phases: seq<Phase>, links: seq<Link>)
    requires |links| == |phases| + 1
    requires forall i :: 0 <= i < |phases| ==> RunPhase(s, phases[i], links[i]) == Progress(links[i + 1], Passed)
    ensures RunHandshake(s, phases, links[0]) == Chain(links[|phases|], phases, Passed)
    decreases |phases|
  {
    if phases != [] {
      assert RunPhase(s, phases[0], links[0]) == Progress(links[1], Passed);
      RunHandshakeCons(s, phases, links[0]);
      forall i | 0 <= i < |phases| - 1
        ensures RunPhase(s, phases[1..][i], links[1..][i]) == Progress(links[1..][i + 1], Passed)
      {
        assert phases[1..][i] == phases[i + 1];
      }
      RunHandshakeThrough(s, phases[1..], links[1..]);
      assert phases == [phases[0]] + phases[1..];
    }
  }

  /** After the first failing step no later step runs, and neither the handler
      nor the close-accept path is ever reached. */
  lemma ServeStopsAtFirstFailure(s: Server, link: Link)
    ensures var hs := RunHandshake(s, HandshakeOrder, link);
            var r := Serve(s, link);
            hs.ending != Passed ==>
              && r.started == hs.started && r.ending == hs.ending
              && forall e :: e in Appended(link, r.link) ==> !e.Handled? && e != Ran(AcceptClose)
  {
    var hs := RunHandshake(s, HandshakeOrder, link);
    ServeSplits(s, link);
    HandshakeHandlesNothing(s, HandshakeOrder, link);
    if hs.ending != Passed {
      ConcludeEvents(s, hs);
      var before := Appended(link, hs.link);
      var after := Appended(hs.link, Conclude(s, hs).link);
      forall e: Event | e in before + after
        ensures !e.Handled? && e != Ran(AcceptClose)
      {
        assert e in before || e in after;
      }
    }
  }

  lemma ConcludeNeverHandlesClose(s: Server, hs: Chain)
    ensures forall e :: e in Appended(hs.link, Conclude(s, hs).link) && e.Handled? ==> !e.msg.ConnectionClose?
  {
    ConcludeEvents(s, hs);
    if hs.ending == Passed {
      var loop := MessageLoop(s, hs.link);
      MessageLoopEvents(s, hs.link);
      var during := Appended(hs.link, loop.link);
      var tail: seq<Event> := if loop.exit.Accepted? then [] else [Ran(Close)];
      forall e: Event | e in during + tail && e.Handled?
        ensures !e.msg.ConnectionClose?
      {
        assert e in during || e in tail;
      }
    }
  }

  /** How `events` close a session that ended with `ending`: once the peer's
      close was accepted the session ends with that path's outcome and is
      never closed; otherwise it is closed once if it failed and never if not;
      a close is always the last event. */
  predicate ClosesOnceOnError(events: seq<Event>, ending: Ending, accepted: Outcome)
  {
    && (Ran(AcceptClose) in events ==> ending == Returned(accepted) && Ran(Close) !in events)
    && (Ran(AcceptClose) !in events ==>
          multiset(events)[Ran(Close)] == (if ending.Returned? && ending.outcome.Fail? then 1 else 0))
    && (Ran(Close) in events ==> events[|events| - 1] == Ran(Close))
  }

  /** A ConnectionClose from the peer never reaches the handler. */
  lemma ServeNeverHandlesClose(s: Server, link: Link)
    ensures var r := Serve(s, link);
            forall e :: e in Appended(link, r.link) && e.Handled? ==> !e.msg.ConnectionClose?
  {
    var hs := RunHandshake(s, HandshakeOrder, link);
    ServeSplits(s, link);
    HandshakeHandlesNothing(s, HandshakeOrder, link);
    ConcludeNeverHandlesClose(s, hs);
    var before := Appended(link, hs.link);
    var after := Appended(hs.link, Conclude(s, hs).link);
    forall e: Event | e in before + after && e.Handled?
      ensures !e.msg.ConnectionClose?
    {
      assert e in before || e in after;
    }
  }

  lemma ConcludeClosesOnceOnError(s: Server, hs: Chain)
    ensures var r := Conclude(s, hs);
            ClosesOnceOnError(Appended(hs.link, r.link), r.ending, s.outcomes.acceptClose)
  {
    ConcludeEvents(s, hs);
    if hs.ending == Passed {
      var loop := MessageLoop(s, hs.link);
      MessageLoopEvents(s, hs.link);
      var during := Appended(hs.link, loop.link);
      assert Ran(Close) !in during;
      assert multiset(during)[Ran(Close)] == 0;
      if loop.exit.Broke? {
        assert multiset(during + [Ran(Close)]) == multiset(during) + multiset{Ran(Close)};
      }
    }
  }

  /** Events before a close-free prefix do not change how often or where the
      session closes. */
  lemma ClosesOnceAfterPrefix(before: seq<Event>, after: seq<Event>, ending: Ending, accepted: Outcome)
    requires Ran(Close) !in before && Ran(AcceptClose) !in before
    requires ClosesOnceOnError(after, ending, accepted)
    ensures ClosesOnceOnError(before + after, ending, accepted)
  {
    assert multiset(before)[Ran(Close)] == 0;
    assert multiset(before + after) == multiset(before) + multiset(after);
    assert Ran(AcceptClose) in before + after <==> Ran(AcceptClose) in after;
    assert Ran(Close) in before + after <==> Ran(Close) in after;
    if Ran(Close) in after {
      assert (before + after)[|before + after| - 1] == after[|after| - 1];
    }
  }

  lemma ServeClosesOnceOnError(s: Server, link: Link)
    ensures var r := Serve(s, link);
            ClosesOnceOnError(Appended(link, r.link), r.ending, s.outcomes.acceptClose)
  {
    var hs := RunHandshake(s, HandshakeOrder, link);
    ServeSplits(s, link);
    HandshakeHandlesNothing(s, HandshakeOrder, link);
    ConcludeClosesOnceOnError(s, hs);
    ClosesOnceAfterPrefix(Appended(link, hs.link), Appended(hs.link, Conclude(s, hs).link), Conclude(s, hs).ending, s.outcomes.acceptClose);
  }

  /** A session returns success only after the peer closed it and the
      close-accept path passed. */
  lemma ServeSucceedsOnlyThroughPeerClose(s: Server, link: Link)
    ensures var r := Serve(s, link);
            r.ending == Passed ==> Ran(AcceptClose) in Appended(link, r.link) && s.outcomes.acceptClose == Pass
  {
    var hs := RunHandshake(s, HandshakeOrder, link);
    ServeSplits(s, link);
    ConcludeEvents(s, hs);
    var r := Conclude(s, hs);
    if r.ending == Passed {
      var loop := MessageLoop(s, hs.link);
      MessageLoopEvents(s, hs.link);
      assert Ran(AcceptClose) in Appended(hs.link, loop.link);
      assert Ran(AcceptClose) in Appended(hs.link, r.link);
    }
  }
}

=== FILE: strings.dfy ===
/** The few string operations the struct-tag parser relies on, with the
    behaviour of Go's `strings.Split`, `strings.SplitN(s, sep, 2)` and
    `strings.TrimSpace` for a one-character separator. Strings are sequences
    of code points. */
module Strings {

  /** The position of the first `c` in `s`. */
  function IndexOf(s: string, c: char): (i: nat)
    requires c in s
    ensures i < |s| && s[i] == c
    ensures c !in s[..i]
  {
    if s[0] == c then 0
    else
      assert s == [s[0]] + s[1..];
      var i := IndexOf(s[1..], c);
      assert s[..i + 1] == [s[0]] + s[1..][..i];
      i + 1
  }

  /** A position holding `c` with no `c` before it is the first one. */
  lemma {:induction false} IndexOfFirst(s: string, c: char, j: nat)
    requires j < |s| && s[j] == c && c !in s[..j]
    ensures IndexOf(s, c) == j
  {
    if j > 0 {
      assert s[0] == s[..j][0];
      assert s[1..][..j - 1] == s[..j][1..];
      IndexOfFirst(s[1..], c, j - 1);
    }
  }

  /** A string is the text before position `i`, the character there and the
      text after it. */
  lemma CutAt(s: string, i: nat)
    requires i < |s|
    ensures s == s[..i] + [s[i]] + s[i + 1..]
  {
  }

  /** Splits `s` around every `sep`; the pieces hold no `sep`, and there is one
      more piece than there are separators, so the empty string gives one
      empty piece. */
  function Split(s: string, sep: char): (parts: seq<string>)
    ensures |parts| >= 1
    ensures forall i :: 0 <= i < |parts| ==> sep !in parts[i]
    ensures sep !in s ==> parts == [s]
    decreases |s|
  {
    if sep !in s then [s]
    else
      var i := IndexOf(s, sep);
      [s[..i]] + Split(s[i + 1..], sep)
  }

  /** Joins `parts` with `sep` between neighbours. */
  function Join(parts: seq<string>, sep: char): string
  {
    if |parts| == 0 then ""
    else if |parts| == 1 then parts[0]
    else parts[0] + [sep] + Join(parts[1..], sep)
  }

  /** Splitting and joining again gives back the string. */
  lemma {:induction false} JoinSplit(s: string, sep: char)
    ensures Join(Split(s, sep), sep) == s
    decreases |s|
  {
    if sep in s {
      var i := IndexOf(s, sep);
      CutAt(s, i);
      var rest := Split(s[i + 1..], sep);
      var parts := [s[..i]] + rest;
      assert Split(s, sep) == parts;
      assert parts[0] == s[..i] && parts[1..] == rest;
      assert Join(parts, sep) == s[..i] + [sep] + Join(rest, sep);
      JoinSplit(s[i + 1..], sep);
    }
  }

  /** Joining pieces free of `sep` and splitting again gives back the pieces. */
  lemma {:induction false} SplitJoin(parts: seq<string>, sep: char)
    requires |parts| >= 1
    requires forall i :: 0 <= i < |parts| ==> sep !in parts[i]
    ensures Split(Join(parts, sep), sep) == parts
    decreases |parts|
  {
    if |parts| > 1 {
      var s := Join(parts, sep);
      var tail := Join(parts[1..], sep);
      assert s == parts[0] + [sep] + tail;
      assert sep in s by { assert s[|parts[0]|] == sep; }
      var i := IndexOf(s, sep);
      assert s[..|parts[0]|] == parts[0];
      IndexOfFirst(s, sep, |parts[0]|);
      assert s[|parts[0]| + 1..] == tail;
      SplitJoin(parts[1..], sep);
    }
  }

  /** `strings.SplitN(s, sep, 2)`: the whole string when it holds no `sep`,
      otherwise the text before the first `sep` and everything after it. */
  function SplitOnce(s: string, sep: char): (parts: seq<string>)
    ensures |parts| == 1 <==> sep !in s
    ensures |parts| == 1 || |parts| == 2
    ensures |parts| == 1 ==> parts[0] == s
    ensures |parts| == 2 ==> s == parts[0] + [sep] + parts[1] && sep !in parts[0]
  {
    if sep !in s then [s]
    else
      var i := IndexOf(s, sep);
      assert s == s[..i] + [sep] + s[i + 1..];
      [s[..i], s[i + 1..]]
  }

  /** The first piece of a split-once is the first piece of a full split; the
      second piece is the rest joined back, so it may hold further `sep`s. */
  lemma SplitOnceAgreesWithSplit(s: string, sep: char)
    ensures SplitOnce(s, sep)[0] == Split(s, sep)[0]
    ensures |SplitOnce(s, sep)| == 2 ==> SplitOnce(s, sep)[1] == Join(Split(s, sep)[1..], sep)
  {
    if sep in s {
      var i := IndexOf(s, sep);
      var rest := Split(s[i + 1..], sep);
      assert SplitOnce(s, sep) == [s[..i], s[i + 1..]];
      assert Split(s, sep) == [s[..i]] + rest;
      assert ([s[..i]] + rest)[1..] == rest;
      JoinSplit(s[i + 1..], sep);
    }
  }

  /** Go's `unicode.IsSpace`: the Latin-1 white space characters, and beyond
      them the characters with the Unicode White_Space property. */
  predicate IsSpace(c: char)
  {
    || c == '\t' || c == '\n' || c == '\U{000B}' || c == '\U{000C}' || c == '\r' || c == ' '
    || c == '\U{0085}' || c == '\U{00A0}' || c == '\U{1680}'
    || ('\U{2000}' <= c <= '\U{200A}')
    || c == '\U{2028}' || c == '\U{2029}' || c == '\U{202F}' || c == '\U{205F}' || c == '\U{3000}'
  }

  predicate AllSpace(s: string)
  {
    forall i :: 0 <= i < |s| ==> IsSpace(s[i])
  }

  /** `r` sits in `s` with only white space before and after it. */
  predicate Padded(s: string, r: string, lo: nat)
  {
    && lo + |r| <= |s|
    && s[lo..lo + |r|] == r
    && AllSpace(s[..lo])
    && AllSpace(s[lo + |r|..])
  }

  /** Neither end of `r` is white space. */
  predicate Trimmed(r: string)
  {
    r == [] || (!IsSpace(r[0]) && !IsSpace(r[|r| - 1]))
  }

  lemma AllSpaceConcat(a: string, b: string)
    ensures AllSpace(a + b) <==> AllSpace(a) && AllSpace(b)
  {
    if AllSpace(a + b) {
      assert forall i :: 0 <= i < |a| ==> a[i] == (a + b)[i];
      assert forall i :: 0 <= i < |b| ==> b[i] == (a + b)[|a| + i];
    }
  }

  lemma TakeAfterFirst(s: string, k: nat)
    requires k < |s|
    ensures s[..k + 1] == [s[0]] + s[1..][..k]
  {
  }

  lemma DropBeforeLast(s: string, k: nat)
    requires k < |s|
    ensures s[|s| - (k + 1)..] == s[..|s| - 1][|s| - 1 - k..] + [s[|s| - 1]]
  {
  }

  /** Cutting `s` at `lo` and the rest at `hi`. */
  lemma Between(s: string, lo: nat, hi: nat)
    requires lo <= |s| && hi <= |s| - lo
    ensures s[lo..][..hi] == s[lo..lo + hi]
    ensures s[lo..][hi..] == s[lo + hi..]
    ensures s == s[..lo] + s[lo..][..hi] + s[lo..][hi..]
  {
  }

  /** The number of white-space characters `s` starts with. */
  function LeadingSpace(s: string): (n: nat)
    ensures n <= |s| && AllSpace(s[..n])
    ensures n < |s| ==> !IsSpace(s[n])
  {
    if s == [] || !IsSpace(s[0]) then 0
    else
      var n := LeadingSpace(s[1..]);
      TakeAfterFirst(s, n);
      AllSpaceConcat([s[0]], s[1..][..n]);
      n + 1
  }

  /** The number of white-space characters `s` ends with. */
  function TrailingSpace(s: string): (n: nat)
    ensures n <= |s| && AllSpace(s[|s| - n..])
    ensures n < |s| ==> !IsSpace(s[|s| - n - 1])
  {
    if s == [] || !IsSpace(s[|s| - 1]) then 0
    else
      var init := s[..|s| - 1];
      var n := TrailingSpace(init);
      DropBeforeLast(s, n);
      AllSpaceConcat(init[|init| - n..], [s[|s| - 1]]);
      n + 1
  }

  /** `strings.TrimSpace`: `s` without its leading and trailing white space. */
  function TrimSpace(s: string): (r: string)
    ensures Trimmed(r)
    ensures Padded(s, r, LeadingSpace(s))
    ensures r == [] <==> AllSpace(s)
  {
    var lo := LeadingSpace(s);
    var rest := s[lo..];
    var t := TrailingSpace(rest);
    TrimBetween(s, lo, rest, t);
    rest[..|rest| - t]
  }

  /** Cutting off `lo` leading and `t` trailing white-space characters, each run
      as long as it goes, leaves a trimmed string padded in `s`. */
  lemma TrimBetween(s: string, lo: nat, rest: string, t: nat)
    requires lo <= |s| && rest == s[lo..]
    requires AllSpace(s[..lo]) && (lo < |s| ==> !IsSpace(s[lo]))
    requires t <= |rest| && AllSpace(rest[|rest| - t..])
    requires t < |rest| ==> !IsSpace(rest[|rest| - t - 1])
    ensures Trimmed(rest[..|rest| - t])
    ensures Padded(s, rest[..|rest| - t], lo)
    ensures rest[..|rest| - t] == [] <==> AllSpace(s)
  {
    var hi := |rest| - t;
    var r := rest[..hi];
    Between(s, lo, hi);
    if r == [] {
      AllSpaceConcat(s[..lo], rest[hi..]);
    } else {
      assert r[0] == s[lo];
    }
  }

  /** A white-space run followed by something else is the leading white space. */
  lemma {:induction false} LeadingSpaceUnique(s: string, k: nat)
    requires k <= |s| && AllSpace(s[..k]) && (k < |s| ==> !IsSpace(s[k]))
    ensures LeadingSpace(s) == k
  {
    if k > 0 {
      assert IsSpace(s[..k][0]);
      assert s[1..][..k - 1] == s[..k][1..];
      LeadingSpaceUnique(s[1..], k - 1);
    }
  }

  /** Something else followed by a white-space run is the trailing white space. */
  lemma {:induction false} TrailingSpaceUnique(s: string, k: nat)
    requires k <= |s| && AllSpace(s[|s| - k..]) && (k < |s| ==> !IsSpace(s[|s| - k - 1]))
    ensures TrailingSpace(s) == k
  {
    if k > 0 {
      var init := s[..|s| - 1];
      assert IsSpace(s[|s| - k..][k - 1]);
      assert init[|init| - (k - 1)..] == s[|s| - k..][..k - 1];
      TrailingSpaceUnique(init, k - 1);
    }
  }

  /** The trimmed string is the only one that both sits between white space
      in `s` and has no white space at either end. */
  lemma TrimSpaceUnique(s: string, r: string, lo: nat)
    requires Padded(s, r, lo) && Trimmed(r)
    ensures r == TrimSpace(s)
  {
    if r == [] {
      forall i | 0 <= i < |s|
        ensures IsSpace(s[i])
      {
        if i < lo { assert s[..lo][i] == s[i]; } else { assert s[lo..][i - lo] == s[i]; }
      }
    } else {
      assert s[lo] == r[0];
      LeadingSpaceUnique(s, lo);
      var rest := s[lo..];
      var k := |rest| - |r|;
      assert rest[|rest| - k..] == s[lo + |r|..];
      assert rest[|rest| - k - 1] == r[|r| - 1];
      TrailingSpaceUnique(rest, k);
      assert rest[..|r|] == r;
    }
  }

  /** Trimming twice trims nothing more. */
  lemma TrimSpaceIdempotent(s: string)
    ensures TrimSpace(TrimSpace(s)) == TrimSpace(s)
  {
    var t := TrimSpace(s);
    assert Padded(t, t, 0) by {
      assert t[..0] == [] && t[|t|..] == [] && t[0..|t|] == t;
    }
    TrimSpaceUnique(t, t, 0);
  }
}
